=== FILE: README.md ===
# Document conversion service: a Dafny model of the conversion pipeline

The service accepts a Word file (`change`) or a PDF (`pdfToWord`, `pdfToDoc`) and stages
it under `taskId + "_" + originalFilename`. It then records a conversion task, converts the
file with LibreOffice, uploads the result to an object store and marks the task COMPLETED
with the object's URL, or FAILED with the exception's message. This project models that
core as pure Dafny functions and proves properties about it:

- `Common`, `Text`: `Option`, bytes, abstract clock ticks, and the Java string operations
  the pipeline uses. These are `lastIndexOf`, ASCII `toLowerCase`/`equalsIgnoreCase`,
  `\s` removal, `startsWith`/`endsWith`, `contains`, integer-to-string, UTF-16 lengths and the
  `substring` exception text.
- `TaskStatus`, `ConvertTask`, `Results`: the status enum, the task record with its
  setters, and the `Result` envelope with its factories.
- `TaskRegistry`: the in-memory task map of `TaskServiceImpl`, one value per state.
- `FileType`: extension parsing, the two content sniffers, staged and target file names,
  and the content type chosen for the upload.
- `PdfText`: the bounded chunk scan that guesses whether a PDF has a text layer.
- `ConvertCommand`: the LibreOffice filter string, the PDF import flags and the
  direct-execution argument list.
- `ConvertOutput`: the exit-code check, and the four-rule search of the output directory
  that runs when the expected output is missing.
- `Orchestrator`: the three background jobs, as the registry they leave and the sequence
  of requests they make (mark, convert, upload, delete).
- `Submission`: the three endpoints end to end. The UUID, the file system, the converter
  process, the object store and the clock are inputs collected in a `World` value.

The endpoints call the background job through `this`, so Spring's `@Async` proxy is
bypassed and the job runs to completion before the response is built.
`Submission.Submit` therefore composes the submission and the job into one function.

The model follows the code as written; in particular:

- The sniffers trust the extension alone: a file named `x.pdf` is accepted whatever its
  bytes are (`Submission.PdfExtensionAloneIsAccepted`).
- Sniffing reads at most 8 bytes into a buffer and compares the first 4 with the magic
  number.
- Name normalisation in the output search removes whitespace and lower-cases. It does not
  remove punctuation.
- The prefix rule takes the first directory entry that matches, in directory order. It does
  not prefer an entry with the target extension, nor the most recent one.
- There is no separate fallback for a PDF-to-DOC output with the wrong name; all three jobs
  share the same search.
- When no entry matches, the message that mentions other files of the same type is built
  but then discarded. The enclosing `catch (IOException)` rethrows with the plain
  "转换后的文件不存在: " + path message.
- A converter that exits with 0 and writes nothing still completes the task. The staged
  source satisfies the prefix rule for its own expected output name, so the source is
  moved onto the output name and uploaded as the result
  (`Submission.SilentConverterCompletes`). This is how the VBScript launch path behaves,
  since it does not wait for soffice.
- A text file named `invalid.pdf` is accepted by its extension, so the endpoint answers
  200 and creates a task; when a check does reject an upload, `Result.error(msg)` answers
  with code 400.
- Lengths and offsets are Java's: `length()`, `substring` and `startsWith` count UTF-16 code
  units, so a character outside the Basic Multilingual Plane counts twice
  (`Text.Utf16`, `ConvertOutput.PrefixLength`).
- No JDK version is fixed, so the runtime is an input (`Text.Jdk`). The
  `StringIndexOutOfBoundsException` texts differ:
  - JDK 8 reports one offending number, "String index out of range: N";
  - JDK 9 to 17 build "begin B, end E, length L" in `String.checkBoundsBeginEnd`;
  - JDK 21 delegates that check to `Preconditions.checkFromToIndex`, which reports
    "Range [B, E) out of bounds for length L".

  The text from `substring(0, -1)` at submission escapes the endpoint. The text from the
  prefix rule becomes the task's error message.
- Resolving the staged name against the upload directory (`uploadPath.resolve`) throws
  `InvalidPathException` for a name the file system rejects. That exception is not an
  `IOException`, so it escapes the endpoint after the directory exists and before any task
  is created. On Unix a NUL character is rejected (`Submission.NulNameCrashesOnUnix`).

## Model

| member | source | states |
|---|---|---|
| Text.LastIndexOf | backend/ptw/src/main/java/com/yufei/ptw/service/serviceImpl/ConvertServiceImpl.java:318 | `lastIndexOf`: -1 exactly when the character is absent, otherwise an index holding it with no occurrence after it |
| Text.LastIndexOfAt | backend/ptw/src/main/java/com/yufei/ptw/service/serviceImpl/ConvertServiceImpl.java:318 | an occurrence with none after it is the one `lastIndexOf` returns |
| Text.ToLower | backend/ptw/src/main/java/com/yufei/ptw/service/serviceImpl/ConvertServiceImpl.java:319 | lower-casing keeps the length and maps every character on its own |
| Text.RemoveWhitespace | backend/ptw/src/main/java/com/yufei/ptw/service/serviceImpl/ConvertServiceImpl.java:705-706 | `replaceAll("\\s+", "")` keeps only non-whitespace characters of the input and never lengthens it; the lemmas below fix the result exactly |
| Text.RemoveWhitespaceAppend | backend/ptw/src/main/java/com/yufei/ptw/service/serviceImpl/ConvertServiceImpl.java:705-706 | removing whitespace from two strings in a row is removing it from each |
| Text.RemoveWhitespaceKeepsPlain | backend/ptw/src/main/java/com/yufei/ptw/service/serviceImpl/ConvertServiceImpl.java:705-706 | a string without whitespace is returned unchanged |
| Text.RemoveWhitespaceDropsBlank | backend/ptw/src/main/java/com/yufei/ptw/service/serviceImpl/ConvertServiceImpl.java:705-706 | a single whitespace character is removed |
| Text.LowerCommutesWithRemoveWhitespace | backend/ptw/src/main/java/com/yufei/ptw/service/serviceImpl/ConvertServiceImpl.java:705-706 | lower-casing and whitespace removal may be applied in either order |
| Text.EqualsIgnoreCaseCharwise | backend/ptw/src/main/java/com/yufei/ptw/service/serviceImpl/ConvertServiceImpl.java:700 | `equalsIgnoreCase` holds iff the lengths agree and each pair of characters is equal, equal upper-cased or equal lower-cased |
| Text.SameCaseFold | backend/ptw/src/main/java/com/yufei/ptw/service/serviceImpl/ConvertServiceImpl.java:700 | two characters that match under either case mapping have the same lower case |
| Text.CodeUnits | backend/ptw/src/main/java/com/yufei/ptw/service/serviceImpl/ConvertServiceImpl.java:712 | a character is one UTF-16 unit below U+10000 and a high-then-low surrogate pair above it |
| Text.Utf16 | backend/ptw/src/main/java/com/yufei/ptw/service/serviceImpl/ConvertServiceImpl.java:712 | a Java string has at least as many code units as characters |
| Text.Utf16Append | backend/ptw/src/main/java/com/yufei/ptw/service/serviceImpl/ConvertServiceImpl.java:712 | the code units of a concatenation are the two strings' code units in a row |
| Text.Utf16OfBmp | backend/ptw/src/main/java/com/yufei/ptw/service/serviceImpl/ConvertServiceImpl.java:712 | a string inside the Basic Multilingual Plane has one unit per character, equal to the character |
| Text.SupplementaryCountsTwice | backend/ptw/src/main/java/com/yufei/ptw/service/serviceImpl/ConvertServiceImpl.java:712 | U+1F600 is one character but two Java characters, D83D DE00 |
| Text.SubstringRangeMessage | backend/ptw/src/main/java/com/yufei/ptw/service/serviceImpl/ConvertServiceImpl.java:80 | the `substring` exception text: on JDK 8 the first offending value of begin, end and end - begin; on JDK 9 to 17 "begin B, end E" with E in its place and the length last; on JDK 21 "Range [B, E" with E in its place, then ") out of bounds for length" and the length |
| Text.NegativeEndMessage | backend/ptw/src/main/java/com/yufei/ptw/service/serviceImpl/ConvertServiceImpl.java:80 | on JDK 8 `substring(0, -1)` reports "String index out of range: -1" for every length |
| Text.NegativeEndRangeMessage | backend/ptw/src/main/java/com/yufei/ptw/service/serviceImpl/ConvertServiceImpl.java:80 | on JDK 21 `substring(0, -1)` reports "Range [0, -1) out of bounds for length L", L the string's length |
| Text.IndexMessage | backend/ptw/src/main/java/com/yufei/ptw/service/serviceImpl/ConvertServiceImpl.java:80 | the JDK 8 text starts with "String index out of range: " and ends with the offending number |
| Text.BeginEndMessage | backend/ptw/src/main/java/com/yufei/ptw/service/serviceImpl/ConvertServiceImpl.java:80 | the JDK 9 to 17 text is "begin B, end ", then the end index, then ", length " and the length, each part at its position |
| Text.RangeMessage | backend/ptw/src/main/java/com/yufei/ptw/service/serviceImpl/ConvertServiceImpl.java:80 | the JDK 21 text is "Range [B, ", then the end index, then ") out of bounds for length " and the length, each part at its position |
| TaskStatus.Ordinal | backend/ptw/src/main/java/com/yufei/ptw/entity/TaskStatus.java:6-10 | each status sits at its declared position among the four values |
| TaskStatus.Description | backend/ptw/src/main/java/com/yufei/ptw/entity/TaskStatus.java:7-16 | every status has a non-empty fixed description: 待处理, 处理中, 已完成, 失败 |
| TaskStatus.ValuesEnumerateStatuses | backend/ptw/src/main/java/com/yufei/ptw/entity/TaskStatus.java:6-10 | there are exactly four distinct values, PENDING, PROCESSING, COMPLETED, FAILED in that order, and every status is one of them |
| TaskStatus.DescriptionsAreDistinct | backend/ptw/src/main/java/com/yufei/ptw/entity/TaskStatus.java:7-10 | two statuses share a description only if they are the same status |
| ConvertTask.Blank | backend/ptw/src/main/java/com/yufei/ptw/entity/ConvertTask.java:17-18 | the no-argument constructor leaves every field null, the status included |
| ConvertTask.New | backend/ptw/src/main/java/com/yufei/ptw/entity/ConvertTask.java:20-26 | the two-argument constructor sets id, filename, PENDING and both times, and leaves URL and error message null |
| ConvertTask.SetStatus | backend/ptw/src/main/java/com/yufei/ptw/entity/ConvertTask.java:48-51 | `setStatus` stores the status and the current time as `updateTime`, and changes no other field |
| ConvertTask.SetFileUrl | backend/ptw/src/main/java/com/yufei/ptw/entity/ConvertTask.java:57-59 | `setFileUrl` changes only the URL |
| ConvertTask.SetErrorMessage | backend/ptw/src/main/java/com/yufei/ptw/entity/ConvertTask.java:65-67 | `setErrorMessage` changes only the error message |
| ConvertTask.GettersReturnLastWrite | backend/ptw/src/main/java/com/yufei/ptw/entity/ConvertTask.java:28-83 | after any sequence of setter calls, every getter returns the value last written to its field; `updateTime` also sees each `setStatus` |
| ConvertTask.LastWriteWins | backend/ptw/src/main/java/com/yufei/ptw/entity/ConvertTask.java:28-83 | one more setter call keeps every field equal to its last write |
| ConvertTask.ApplyAllSnoc | backend/ptw/src/main/java/com/yufei/ptw/entity/ConvertTask.java:28-83 | applying a history plus one setter is applying that setter to the record the history left |
| ConvertTask.SettersCommute | backend/ptw/src/main/java/com/yufei/ptw/entity/ConvertTask.java:48-67 | setters on different fields commute, and a second `setStatus` overrides the first, its time included |
| Results.Success | backend/ptw/src/main/java/com/yufei/ptw/entity/Result.java:19-26 | `success(d)` has code 200, msg "操作成功" and data d, and counts as a success |
| Results.SuccessEmpty | backend/ptw/src/main/java/com/yufei/ptw/entity/Result.java:14-16 | `success()` is `success(null)` |
| Results.Error | backend/ptw/src/main/java/com/yufei/ptw/entity/Result.java:29-35 | `error(code, msg)` keeps code and msg and leaves data null |
| Results.ErrorCode | backend/ptw/src/main/java/com/yufei/ptw/entity/Result.java:37-42 | `error(code)` leaves msg and data null |
| Results.ErrorMessage | backend/ptw/src/main/java/com/yufei/ptw/entity/Result.java:45-47 | `error(msg)` is `error(400, msg)` and is never a success |
| Results.ErrorSucceedsOnlyWithCode200 | backend/ptw/src/main/java/com/yufei/ptw/entity/Result.java:50-52 | `isSuccess()` holds exactly when the code is 200, whichever factory built the result |
| TaskRegistry.CreateTask | backend/ptw/src/main/java/com/yufei/ptw/service/serviceImpl/TaskServiceImpl.java:23-27 | stores a fresh PENDING record under the id, replacing any earlier one, returns it, and changes no other entry |
| TaskRegistry.GetTask | backend/ptw/src/main/java/com/yufei/ptw/service/serviceImpl/TaskServiceImpl.java:30-32 | the stored record, or null exactly when the id was never stored |
| TaskRegistry.UpdateToProcessing | backend/ptw/src/main/java/com/yufei/ptw/service/serviceImpl/TaskServiceImpl.java:35-40 | unknown id: no change; otherwise only the status and `updateTime` of that record change |
| TaskRegistry.UpdateToCompleted | backend/ptw/src/main/java/com/yufei/ptw/service/serviceImpl/TaskServiceImpl.java:43-49 | unknown id: no change; otherwise COMPLETED with the URL, the error message kept, other entries unchanged |
| TaskRegistry.UpdateToFailed | backend/ptw/src/main/java/com/yufei/ptw/service/serviceImpl/TaskServiceImpl.java:52-58 | unknown id: no change; otherwise FAILED with the message, the URL kept, other entries unchanged |
| TaskRegistry.GetAfterCreate | backend/ptw/src/main/java/com/yufei/ptw/service/serviceImpl/TaskServiceImpl.java:23-32 | `getTask` returns the record `createTask` stored, and other ids answer as before |
| TaskRegistry.TransitionsIgnoreCurrentStatus | backend/ptw/src/main/java/com/yufei/ptw/service/serviceImpl/TaskServiceImpl.java:35-49 | a COMPLETED or FAILED task can be sent back to PROCESSING or marked COMPLETED: the registry does not enforce an order |
| FileType.GetFileExtension | backend/ptw/src/main/java/com/yufei/ptw/service/serviceImpl/ConvertServiceImpl.java:317-320 | "" when there is no '.', otherwise the lower-cased text after the last '.', which contains no '.' |
| FileType.ExtensionOfDottedName | backend/ptw/src/main/java/com/yufei/ptw/service/serviceImpl/ConvertServiceImpl.java:317-320 | for `stem.e` with no '.' in `e` the extension is `e` lower-cased, whatever the stem |
| FileType.LastDotOfJoin | backend/ptw/src/main/java/com/yufei/ptw/service/serviceImpl/ConvertServiceImpl.java:318 | in `stem.e` with no '.' in `e`, the last '.' is the one after the stem |
| FileType.DotJoinShape | backend/ptw/src/main/java/com/yufei/ptw/service/serviceImpl/ConvertServiceImpl.java:318 | the joining '.' of `stem.e` is followed by no other '.' |
| FileType.ReadHeader | backend/ptw/src/main/java/com/yufei/ptw/service/serviceImpl/ConvertServiceImpl.java:382-384 | the header read is a prefix of the content of at most 8 bytes |
| FileType.DetermineActualFileType | backend/ptw/src/main/java/com/yufei/ptw/service/serviceImpl/ConvertServiceImpl.java:367-403 | doc/docx by extension, else by exact content type, else by the D0 CF 11 E0 or 50 4B 03 04 signature; null exactly when all three fail |
| FileType.DeterminePdfFileType | backend/ptw/src/main/java/com/yufei/ptw/service/serviceImpl/ConvertServiceImpl.java:408-435 | pdf by extension, else by content type, else by "%PDF"; null exactly when all three fail |
| FileType.SniffPrecedence | backend/ptw/src/main/java/com/yufei/ptw/service/serviceImpl/ConvertServiceImpl.java:367-435 | once extension or content type decides, the bytes do not matter; only the first four bytes matter; fewer than four bytes never decide |
| FileType.SignatureDecides | backend/ptw/src/main/java/com/yufei/ptw/service/serviceImpl/ConvertServiceImpl.java:382-396 | with neither extension nor content type deciding, each magic number yields its type |
| FileType.StagedName | backend/ptw/src/main/java/com/yufei/ptw/service/serviceImpl/ConvertServiceImpl.java:79 | the staged name is the task id, '_' and the original name: it starts with the id, has '_' right after it, ends with the name, and has no other characters |
| FileType.TargetName | backend/ptw/src/main/java/com/yufei/ptw/service/serviceImpl/ConvertServiceImpl.java:80 | undefined exactly when the staged name has no '.'; otherwise the staged name up to its last '.' plus the new extension |
| FileType.TargetNameOfJoin | backend/ptw/src/main/java/com/yufei/ptw/service/serviceImpl/ConvertServiceImpl.java:152 | the target name of `p.e` is `p` plus the new extension |
| FileType.TargetNameOfStaged | backend/ptw/src/main/java/com/yufei/ptw/service/serviceImpl/ConvertServiceImpl.java:150-152 | with a dot-free id, the target name is undefined exactly when the original name has no '.', and otherwise keeps the original stem |
| FileType.UuidHasNoDot | backend/ptw/src/main/java/com/yufei/ptw/service/serviceImpl/ConvertServiceImpl.java:78 | a UUID string contains no '.' |
| FileType.UploadContentType | backend/ptw/src/main/java/com/yufei/ptw/service/serviceImpl/ConvertServiceImpl.java:302-314 | names ending ".doc" get application/msword, ".docx" the OOXML type, anything else application/pdf |
| FileType.DocxIsNotDoc | backend/ptw/src/main/java/com/yufei/ptw/service/serviceImpl/ConvertServiceImpl.java:305-309 | no name ends with both ".doc" and ".docx", so the two branches never compete |
| FileType.ContentTypeOfPdfName | backend/ptw/src/main/java/com/yufei/ptw/service/serviceImpl/ConvertServiceImpl.java:305-309 | `stem.pdf` is uploaded as application/pdf |
| FileType.ContentTypeOfDocName | backend/ptw/src/main/java/com/yufei/ptw/service/serviceImpl/ConvertServiceImpl.java:305-307 | `stem.doc` is uploaded as application/msword |
| FileType.ContentTypeOfDocxName | backend/ptw/src/main/java/com/yufei/ptw/service/serviceImpl/ConvertServiceImpl.java:308-309 | `stem.docx` is uploaded as the OOXML type |
| FileType.ContentTypeOfFormat | backend/ptw/src/main/java/com/yufei/ptw/service/serviceImpl/ConvertServiceImpl.java:302-314 | `stem.format` is uploaded with the content type of that format, for each of the three targets |
| FileType.TargetNameTypes | backend/ptw/src/main/java/com/yufei/ptw/service/serviceImpl/ConvertServiceImpl.java:80 | a derived target name exists, `getFileExtension` reads its format back, and it is uploaded with that format's type |
| FileType.TargetFormatsAreLowerCase | backend/ptw/src/main/java/com/yufei/ptw/service/serviceImpl/ConvertServiceImpl.java:319 | lower-casing leaves the three target formats unchanged |
| PdfText.ScanPdfForText | backend/ptw/src/main/java/com/yufei/ptw/service/serviceImpl/ConvertServiceImpl.java:453-500 | the chunk loop answers exactly as the reference reading: an unreadable file counts as text, a missing "%PDF" as no text, otherwise text iff a scanned 4096-byte chunk holds BT and ET, /Font, Tj or TJ |
| PdfText.IsPdfWithText | backend/ptw/src/main/java/com/yufei/ptw/service/serviceImpl/ConvertServiceImpl.java:453-500 | reference reading of the scan, stated over chunk indices rather than a loop |
| PdfText.NextChunk | backend/ptw/src/main/java/com/yufei/ptw/service/serviceImpl/ConvertServiceImpl.java:470-488 | each read fills the next chunk and advances the offset to the next chunk boundary |
| PdfText.NoScannedChunkBeyond | backend/ptw/src/main/java/com/yufei/ptw/service/serviceImpl/ConvertServiceImpl.java:469-494 | when the loop stops at end of file or past 5 MiB, no scanned chunk showed text |
| PdfText.StraddlingMarkerIsMissed | backend/ptw/src/main/java/com/yufei/ptw/service/serviceImpl/ConvertServiceImpl.java:470-486 | a file holding "Tj" split by a chunk boundary is judged to have no text |
| PdfText.SpacesThenTShowNoText | backend/ptw/src/main/java/com/yufei/ptw/service/serviceImpl/ConvertServiceImpl.java:476-486 | a chunk of spaces ending in "T" matches none of the markers |
| PdfText.AbsentLeadByte | backend/ptw/src/main/java/com/yufei/ptw/service/serviceImpl/ConvertServiceImpl.java:476-486 | a chunk without a marker's first byte does not contain the marker |
| PdfText.ScanIsBounded | backend/ptw/src/main/java/com/yufei/ptw/service/serviceImpl/ConvertServiceImpl.java:488-490 | at most 1281 chunks are read, and bytes past the header and those chunks never change the answer |
| PdfText.PrefixKeepsScan | backend/ptw/src/main/java/com/yufei/ptw/service/serviceImpl/ConvertServiceImpl.java:488-490 | cutting the body after 1281 chunks keeps the verdict |
| ConvertCommand.ConvertParams | backend/ptw/src/main/java/com/yufei/ptw/service/serviceImpl/ConvertServiceImpl.java:513-525 | "docx:MS Word 2007 XML:UTF8" for docx, "doc:MS Word 97" for doc, the bare format otherwise |
| ConvertCommand.FilterNamesTarget | backend/ptw/src/main/java/com/yufei/ptw/service/serviceImpl/ConvertServiceImpl.java:513-525 | every filter string begins with the format it produces |
| ConvertCommand.UsesPdfImport | backend/ptw/src/main/java/com/yufei/ptw/service/serviceImpl/ConvertServiceImpl.java:514-516 | the import condition holds iff the target is docx or doc (case-sensitive) and the source extension is "pdf" ignoring case |
| ConvertCommand.FallbackArgs | backend/ptw/src/main/java/com/yufei/ptw/service/serviceImpl/ConvertServiceImpl.java:606-628 | soffice, the five quiet switches, the two import flags when they apply, and then `--convert-to, params, input, --outdir, outdir` |
| ConvertCommand.ImportFlagsIffPdfToWord | backend/ptw/src/main/java/com/yufei/ptw/service/serviceImpl/ConvertServiceImpl.java:616-620 | the import filter appears before `--convert-to` iff the conversion is PDF to Word; a PDF target never carries it |
| ConvertCommand.PlanConversion | backend/ptw/src/main/java/com/yufei/ptw/service/serviceImpl/ConvertServiceImpl.java:513-537 | the text-layer probe runs exactly when the import flags are used, and its verdict is the scan's |
| ConvertCommand.TextProbeDoesNotChangeCommand | backend/ptw/src/main/java/com/yufei/ptw/service/serviceImpl/ConvertServiceImpl.java:527-536 | the probe's verdict is only logged: filter, flags and arguments are the same whatever the PDF holds |
| ConvertOutput.ExpectedOutputName | backend/ptw/src/main/java/com/yufei/ptw/service/serviceImpl/ConvertServiceImpl.java:683 | a name without '.' or ending in '.' is kept as it is |
| ConvertOutput.ExpectedNameOfJoin | backend/ptw/src/main/java/com/yufei/ptw/service/serviceImpl/ConvertServiceImpl.java:683 | `stem.ext` becomes `stem.target` |
| ConvertOutput.Normalize | backend/ptw/src/main/java/com/yufei/ptw/service/serviceImpl/ConvertServiceImpl.java:705-706 | a normalised name holds no whitespace, is all lower case, and is never longer than the name |
| ConvertOutput.NormalizeSubsumesIgnoreCase | backend/ptw/src/main/java/com/yufei/ptw/service/serviceImpl/ConvertServiceImpl.java:700-708 | names equal ignoring case are equal once normalised, so the third rule accepts whatever the second does |
| ConvertOutput.NormalizeSkipsWhitespace | backend/ptw/src/main/java/com/yufei/ptw/service/serviceImpl/ConvertServiceImpl.java:705-706 | inserting a whitespace character anywhere does not change the normalised name |
| ConvertOutput.PrefixLength | backend/ptw/src/main/java/com/yufei/ptw/service/serviceImpl/ConvertServiceImpl.java:712 | the prefix is at least 10 units, fits the expected name iff the name has 10 or more UTF-16 units, and leaves off exactly the last 5 once it has 15 or more |
| ConvertOutput.SupplementaryStemIsLongEnough | backend/ptw/src/main/java/com/yufei/ptw/service/serviceImpl/ConvertServiceImpl.java:712 | an expected name of five characters above U+FFFF plus ".pdf" is 9 characters but 14 Java characters, so no entry makes the prefix `substring` throw |
| ConvertOutput.CheckEntry | backend/ptw/src/main/java/com/yufei/ptw/service/serviceImpl/ConvertServiceImpl.java:694-716 | an entry is accepted by the first of exact, ignore-case, normalised and prefix that holds; it is a miss iff none holds; the prefix `substring` throws iff the expected name has fewer than 10 UTF-16 units and the first three fail |
| ConvertOutput.Resolve | backend/ptw/src/main/java/com/yufei/ptw/service/serviceImpl/ConvertServiceImpl.java:690-717 | the first entry that is not a miss decides; "no match" iff every entry is a miss |
| ConvertOutput.FinishConversion | backend/ptw/src/main/java/com/yufei/ptw/service/serviceImpl/ConvertServiceImpl.java:654-745 | a launch failure or a non-zero exit always fails; an existing output succeeds; with a zero exit and no output the entry moved is the one at the index `Resolve` finds first, and the prefix `substring` throws, as `substring(0, 10)` on the expected name, exactly when `Resolve` reports it; a renamed entry is a listing entry satisfying a rule; the not-found error occurs iff every entry fails every rule |
| ConvertOutput.ErrorMessage | backend/ptw/src/main/java/com/yufei/ptw/service/serviceImpl/ConvertServiceImpl.java:657-743 | a launch exception's message is passed on unchanged; the non-zero-exit message is the prefix, the exit code, then ", 输出: " and the output; the not-found message is the plain prefix and path, without the same-type remark; the out-of-range message is the running JDK's `substring` text: JDK 8 names the end index, JDK 9 to 17 give the end index after "begin 0, end " and end with the length, JDK 21 give it after "Range [0, " and end with ") out of bounds for length" and the length |
| ConvertOutput.NonZeroExitMessage | backend/ptw/src/main/java/com/yufei/ptw/service/serviceImpl/ConvertServiceImpl.java:659 | the text is the fixed prefix, the exit code, then ", 输出: " and the process output, each at its position |
| ConvertOutput.SourceMatchesOwnExpectedName | backend/ptw/src/main/java/com/yufei/ptw/service/serviceImpl/ConvertServiceImpl.java:712 | the staged `stem.ext` passes the prefix rule for its own expected output when the stem has 9 or more UTF-16 units |
| ConvertOutput.SourceInListingIsFound | backend/ptw/src/main/java/com/yufei/ptw/service/serviceImpl/ConvertServiceImpl.java:690-724 | while the staged source is in the directory, the search always finds an entry, at or before the source |
| ConvertOutput.ZeroExitWithoutOutputRenamesSource | backend/ptw/src/main/java/com/yufei/ptw/service/serviceImpl/ConvertServiceImpl.java:657-724 | a zero exit with no output and only the source present moves the source onto the output name |
| Orchestrator.TargetFormat | backend/ptw/src/main/java/com/yufei/ptw/service/serviceImpl/ConvertServiceImpl.java:438-450 | the three jobs convert to pdf, docx and doc, and only the Word job targets pdf |
| Orchestrator.TargetFormatIsShort | backend/ptw/src/main/java/com/yufei/ptw/service/serviceImpl/ConvertServiceImpl.java:438-450 | the three target formats are ASCII of at most 4 characters, so their Java length is their Dafny length |
| Orchestrator.FailureMessage | backend/ptw/src/main/java/com/yufei/ptw/service/serviceImpl/ConvertServiceImpl.java:199 | the exception's message, or "未知错误" when it is null |
| Orchestrator.ConversionStep | backend/ptw/src/main/java/com/yufei/ptw/service/serviceImpl/ConvertServiceImpl.java:503-745 | `convertFile` returns iff the output was produced or renamed, and otherwise throws with the failure's message for the running JDK |
| Orchestrator.ObjectUrl | backend/ptw/src/main/java/com/yufei/ptw/util/OssUtil.java:53-73 | the URL is the prefix, the folder and the file name |
| Orchestrator.AttemptEvents | backend/ptw/src/main/java/com/yufei/ptw/service/serviceImpl/ConvertServiceImpl.java:184-201 | conversion is requested first and one terminal mark comes last, COMPLETED iff conversion and upload both returned |
| Orchestrator.Cleanup | backend/ptw/src/main/java/com/yufei/ptw/service/serviceImpl/ConvertServiceImpl.java:202-212 | only the Word job deletes: the source first, then the output unless deleting the source threw |
| Orchestrator.Events | backend/ptw/src/main/java/com/yufei/ptw/service/serviceImpl/ConvertServiceImpl.java:180-293 | every job starts with PROCESSING and then requests the conversion |
| Orchestrator.Orchestrate | backend/ptw/src/main/java/com/yufei/ptw/service/serviceImpl/ConvertServiceImpl.java:180-293 | a job changes only its own task and leaves the registry alone when the id is unknown |
| Orchestrator.RequestsFollowOutcomes | backend/ptw/src/main/java/com/yufei/ptw/service/serviceImpl/ConvertServiceImpl.java:184-201 | upload is requested iff conversion returned; COMPLETED with the upload's URL iff both returned; otherwise FAILED with the first failure's message |
| Orchestrator.AttemptRequests | backend/ptw/src/main/java/com/yufei/ptw/service/serviceImpl/ConvertServiceImpl.java:184-201 | the same three facts for the `try`/`catch` part on its own |
| Orchestrator.FinalTask | backend/ptw/src/main/java/com/yufei/ptw/service/serviceImpl/ConvertServiceImpl.java:184-201 | the task ends COMPLETED with the URL iff both steps succeed, and otherwise FAILED with the first failure's message; the other outcome field keeps its value |
| Orchestrator.TerminalMarkIsUniqueAndLast | backend/ptw/src/main/java/com/yufei/ptw/service/serviceImpl/ConvertServiceImpl.java:180-213 | exactly one terminal mark, after PROCESSING and conversion, and only deletions after it |
| Orchestrator.MarkBeforeDeletions | backend/ptw/src/main/java/com/yufei/ptw/service/serviceImpl/ConvertServiceImpl.java:196-212 | the `finally` requests follow the single terminal mark |
| Orchestrator.DeletionsPerVariant | backend/ptw/src/main/java/com/yufei/ptw/service/serviceImpl/ConvertServiceImpl.java:202-293 | the PDF jobs never delete; the Word job always requests deleting the source, and deletes the output last unless deleting the source threw |
| Orchestrator.StatusesWritten | backend/ptw/src/main/java/com/yufei/ptw/service/serviceImpl/ConvertServiceImpl.java:184-201 | a job writes exactly two statuses: PROCESSING, then COMPLETED or FAILED according to its outcome |
| Orchestrator.StatusesOnlyAdvance | backend/ptw/src/main/java/com/yufei/ptw/service/serviceImpl/ConvertServiceImpl.java:184-201 | from PENDING, the statuses a job writes advance strictly in the enum's order |
| Orchestrator.WrittenStatuses | backend/ptw/src/main/java/com/yufei/ptw/service/serviceImpl/ConvertServiceImpl.java:184-201 | the status history of a request sequence: each request writes at most one status |
| Orchestrator.WrittenStatusesAppend | backend/ptw/src/main/java/com/yufei/ptw/service/serviceImpl/ConvertServiceImpl.java:184-201 | the status history of two request sequences in a row is the two histories in a row |
| Orchestrator.HistoryOf | backend/ptw/src/main/java/com/yufei/ptw/service/serviceImpl/ConvertServiceImpl.java:184-212 | PROCESSING, then a part writing only the terminal status, then deletions, write exactly PROCESSING and the terminal status |
| Orchestrator.AttemptWritesTerminal | backend/ptw/src/main/java/com/yufei/ptw/service/serviceImpl/ConvertServiceImpl.java:187-201 | the `try`/`catch` part writes only the terminal status |
| Orchestrator.OnlyLastMarks | backend/ptw/src/main/java/com/yufei/ptw/service/serviceImpl/ConvertServiceImpl.java:187-201 | a sequence whose only status write is its last writes exactly that status |
| Orchestrator.AllUnmarked | backend/ptw/src/main/java/com/yufei/ptw/service/serviceImpl/ConvertServiceImpl.java:187-212 | requests that write no status leave the history empty |
| Orchestrator.OneMark | backend/ptw/src/main/java/com/yufei/ptw/service/serviceImpl/ConvertServiceImpl.java:187-201 | a single request writes at most its own status |
| Orchestrator.TerminalHistoryAdvances | backend/ptw/src/main/java/com/yufei/ptw/entity/TaskStatus.java:6-10 | PENDING, PROCESSING, then COMPLETED or FAILED is increasing in the enum's order |
| Submission.Submit | backend/ptw/src/main/java/com/yufei/ptw/service/serviceImpl/ConvertServiceImpl.java:42-174 | answers 200 or 400; a 400 leaves the registry untouched and starts no job; a 200 means the upload passed the checks and its task exists; an inadmissible upload is always refused; an escaping exception means the directory exists and either the staged name has no '.' or the file system rejected its path, and a rejected path's message is the `InvalidPathException` text |
| Submission.Save | backend/ptw/src/main/java/com/yufei/ptw/service/serviceImpl/ConvertServiceImpl.java:82-93 | from `resolve` on: the endpoint throws iff the path is rejected, with the `InvalidPathException` text; the answer is 200 or 400; a failed save leaves the registry and requests untouched; a success has created the task, left other tasks alone and carries the id |
| Submission.InvalidPathMessage | backend/ptw/src/main/java/com/yufei/ptw/service/serviceImpl/ConvertServiceImpl.java:83 | `InvalidPathException.getMessage()`: starts with the reason, ends with ": " and the path string, and carries " at index i" between them exactly when the index is known |
| Submission.UnixPathCheck | backend/ptw/src/main/java/com/yufei/ptw/service/serviceImpl/ConvertServiceImpl.java:83 | on Unix a path string is rejected iff it holds a NUL character, with reason "Nul character not allowed" and no index |
| Submission.NulRejected | backend/ptw/src/main/java/com/yufei/ptw/service/serviceImpl/ConvertServiceImpl.java:83 | a string with a NUL is rejected on Unix, and the message is the reason, ": " and the string |
| Submission.NulNameCrashesOnUnix | backend/ptw/src/main/java/com/yufei/ptw/service/serviceImpl/ConvertServiceImpl.java:80-83 | an accepted `stem.e` whose stem holds NUL passes the `substring` and then escapes the endpoint with "Nul character not allowed: " and the staged name |
| Submission.Sniff | backend/ptw/src/main/java/com/yufei/ptw/service/serviceImpl/ConvertServiceImpl.java:62-64 | the Word endpoint recognises doc or docx, and the PDF endpoints (lines 134-136) recognise pdf; nothing is recognised iff neither the extension, nor the content type, nor the signature names an accepted type |
| Submission.UploadFailedMessage | backend/ptw/src/main/java/com/yufei/ptw/service/serviceImpl/ConvertServiceImpl.java:94-97 | "文件上传失败: " followed by the exception's message, or by "null" when the message is null |
| Submission.Job | backend/ptw/src/main/java/com/yufei/ptw/service/serviceImpl/ConvertServiceImpl.java:87-90 | after `createTask` and the job, the task exists and no other entry changed |
| Submission.AcceptedPath | backend/ptw/src/main/java/com/yufei/ptw/service/serviceImpl/ConvertServiceImpl.java:72-93 | once a `stem.e` upload is saved under a UUID id, the answer is the success result carrying the id, and the registry and requests are those of the job converting `id_stem.e` to `id_stem` plus the new extension |
| Submission.AdmissibleDotted | backend/ptw/src/main/java/com/yufei/ptw/service/serviceImpl/ConvertServiceImpl.java:46-65 | for a name `stem.e` the upload passes the checks iff it is non-empty and the endpoint recognises `e` lower-cased, its content type or its signature |
| Submission.NamesOfDottedUpload | backend/ptw/src/main/java/com/yufei/ptw/service/serviceImpl/ConvertServiceImpl.java:78-80 | with a UUID id, `stem.e` is staged as `id_stem.e` and converted to `id_stem` plus the target extension |
| Submission.RejectionsCreateNoTask | backend/ptw/src/main/java/com/yufei/ptw/service/serviceImpl/ConvertServiceImpl.java:44-65 | an empty file, a null name or an unrecognised type gets 400 with its message, no data, no task and no job |
| Submission.StagingFailureCreatesNoTask | backend/ptw/src/main/java/com/yufei/ptw/service/serviceImpl/ConvertServiceImpl.java:70-97 | a failure to create the directory or save the upload gets the upload-failed 400 and creates no task |
| Submission.NameWithoutDotCrashes | backend/ptw/src/main/java/com/yufei/ptw/service/serviceImpl/ConvertServiceImpl.java:78-83 | with a UUID id, the endpoint throws iff the original name has no '.' or its path is rejected; without a '.' the message is the running JDK's `substring(0, -1)` text: "String index out of range: -1" on JDK 8, "Range [0, -1) out of bounds for length L" on JDK 21 |
| Submission.AcceptedSubmission | backend/ptw/src/main/java/com/yufei/ptw/service/serviceImpl/ConvertServiceImpl.java:70-93 | an accepted upload is answered with its task id; its task exists with the original name and ends COMPLETED or FAILED; the job marks it PROCESSING and converts the staged file to the derived target |
| Submission.SilentConverterCompletes | backend/ptw/src/main/java/com/yufei/ptw/service/serviceImpl/ConvertServiceImpl.java:70-93 | a converter that exits 0 and writes nothing still leaves the task COMPLETED, with the URL of the target name |
| Submission.PdfExtensionAloneIsAccepted | backend/ptw/src/main/java/com/yufei/ptw/service/serviceImpl/ConvertServiceImpl.java:408-412 | any non-empty upload named "invalid.pdf" is accepted by the PDF endpoints with code 200, and a task is created |

## Left out

- Process execution is not modelled. That covers locating soffice through fixed paths and
  `PATH`, writing and running the VBScript, `bash -c`, and reading the process output as
  GBK. A run is an input: it either never starts (with an exception message) or exits with
  a code, an output text, a flag for whether the output file exists, and the directory
  listing in stream order.
- The VBScript and `bash` command strings are left out, including `String.format`
  treating a '%' in the soffice path as a format directive. Only the direct-execution
  argument list is modelled.
- File-system calls (`createDirectories`, `uploadPath.resolve`, `transferTo`,
  `deleteIfExists`, `Files.move`, directory streams) are outcomes supplied by the caller. A failing `Files.move`, or a
  directory stream that fails during the search, is not modelled separately. A failing
  move surfaces as the same not-found message.
- The object store client is an outcome: the upload either returns or throws, and the URL
  is `urlPrefix + folder + fileName`.
- Reads are assumed to return everything asked for: the 8-byte header read in sniffing,
  the 5-byte PDF header and each 4096-byte chunk. A stream that fails while sniffing
  (null type) is not modelled.
- PdfText.ScanPdfForText: the markers are searched in the bytes rather than in the string
  decoded with the platform charset. The two agree for ASCII-compatible charsets, not for
  multi-byte ones that swallow a marker byte.
- Text.ToLower: `toLowerCase` and `equalsIgnoreCase` are modelled for ASCII letters only,
  as in the root locale; other Unicode case mappings are not modelled. `toLowerCase()`
  (ConvertServiceImpl.java:319, :705-706) uses the default locale: under a Turkish or Azeri
  default locale ASCII 'I' lowers to dotless 'ı' (U+0131), so the normalised rule can differ
  from the model there (an expected name "Ai.pdf" and an entry "A I.pdf" match in the model
  but not in Java under `tr`). `equalsIgnoreCase` does not depend on the locale. No supported
  extension contains 'i', so extension recognition is unaffected.
- Text.RemoveWhitespace: `\s` is the six ASCII whitespace characters, as in Java's default
  regex mode.
- Text.Utf16: names are sequences of Unicode scalar values, so a Java string holding an
  unpaired surrogate cannot be expressed; UTF-16 counting applies to well-formed names.
- Text.SubstringRangeMessage: three runtimes are modelled, JDK 8, JDK 9 to 17 and JDK 21.
  JDK 18 to 20 and releases after 21 are not told apart; each uses the text of whichever
  `checkBoundsBeginEnd` it ships.
- Submission.UnixPathCheck: only the Unix rule is written out. Windows rejects further
  characters (`<>:"|?*` and control characters); there, the path check is left as an input.
- `Paths.get(uploadDir)` is assumed to succeed, since the directory comes from configuration.
- Integer widths are not modelled: lengths and exit codes are unbounded, and a file
  longer than 2^63 bytes cannot occur.
- Concurrency, `@Async` and the worker pool are not modelled; the call through `this` runs
  the job synchronously anyway. `ConcurrentHashMap` is a plain map value.
- Wall-clock values and `Result.timestamp` are abstract ticks supplied by the caller.
- The HTTP controller, the exception-to-status table, MVC and OSS configuration, the
  Python service and the front end are not part of this model.
- The test suite's expectations are not encoded; `Submission.PdfExtensionAloneIsAccepted`
  states what the code does for the invalid-PDF test input instead.

=== FILE: common.dfy ===
/** Small shared vocabulary: Java's nullable references, bytes and abstract clock ticks. */
module Common {

  /** A Java reference that may be null: `None` stands for `null`. */
  datatype Option<T> = None | Some(value: T) {

    /** The referenced value, or `default` when the reference is null. */
    function GetOr(default: T): T {
      match this
      case Some(v) => v
      case None => default
    }
  }

  /** One byte of a file, as Java reads it into a `byte[]`. */
  type byte = bv8

  /** A reading of `LocalDateTime.now()` or `System.currentTimeMillis()`, left abstract. */
  type Tick = nat

  function Min(a: int, b: int): int {
    if a <= b then a else b
  }

  function Max(a: int, b: int): int {
    if a >= b then a else b
  }
}

=== FILE: convert_command.dfy ===
/**
 * The command part of `convertFile`: the LibreOffice filter string, whether the PDF
 * import flags are added, and the argument list of the direct-execution fallback.
 * Locating soffice, writing the VBScript and starting the process are outside the model;
 * the soffice path and the two absolute paths are parameters.
 */
module ConvertCommand {
  import opened Common
  import opened Text
  import opened PdfText

  const OoxmlFilter: string := "docx:MS Word 2007 XML:UTF8"
  const Word97Filter: string := "doc:MS Word 97"
  const PdfImportFilter: string := "--infilter=writer_pdf_import"
  const OleSupport: string := "--enable-ole-support"

  /** The switches every invocation starts with, after the executable. */
  const QuietSwitches: seq<string> := ["--headless", "--nologo", "--norestore", "--nofirststartwizard", "--nodefault"]

  /** `isWordFormat`: the target is compared case-sensitively. */
  predicate IsWordFormat(targetFormat: string) {
    targetFormat == "docx" || targetFormat == "doc"
  }

  /** `isPdf`: the source extension is compared ignoring case. */
  predicate IsPdfSource(extension: string) {
    EqualsIgnoreCase(extension, "pdf")
  }

  /** The `--convert-to` parameter: a named filter for the two Word targets, the bare format otherwise. */
  function ConvertParams(targetFormat: string): (p: string)
    ensures targetFormat == "docx" ==> p == OoxmlFilter
    ensures targetFormat == "doc" ==> p == Word97Filter
    ensures !IsWordFormat(targetFormat) ==> p == targetFormat
  {
    if targetFormat == "docx" then OoxmlFilter
    else if targetFormat == "doc" then Word97Filter
    else targetFormat
  }

  /** Every filter string begins with the format it produces, so LibreOffice writes that extension. */
  lemma FilterNamesTarget(targetFormat: string)
    ensures StartsWith(ConvertParams(targetFormat), targetFormat)
    ensures IsWordFormat(targetFormat) ==> ConvertParams(targetFormat)[|targetFormat|] == ':'
  {
  }

  /** `isWordFormat && isPdf`: the condition for the PDF import flags and for probing the text layer. */
  function UsesPdfImport(extension: string, targetFormat: string): (b: bool)
    ensures b <==> (targetFormat == "docx" || targetFormat == "doc") && ToLower(extension) == "pdf"
  {
    IsWordFormat(targetFormat) && IsPdfSource(extension)
  }

  /** The argument list built when the VBScript temp file cannot be created. */
  function FallbackArgs(soffice: string, extension: string, targetFormat: string, input: string, outdir: string)
    : (args: seq<string>)
    ensures |args| == (if UsesPdfImport(extension, targetFormat) then 13 else 11)
    ensures args[0] == soffice && args[1..6] == QuietSwitches
    ensures UsesPdfImport(extension, targetFormat) ==> args[6..8] == [PdfImportFilter, OleSupport]
    ensures args[|args| - 5..] == ["--convert-to", ConvertParams(targetFormat), input, "--outdir", outdir]
  {
    [soffice] + QuietSwitches
      + (if UsesPdfImport(extension, targetFormat) then [PdfImportFilter, OleSupport] else [])
      + ["--convert-to", ConvertParams(targetFormat), input, "--outdir", outdir]
  }

  /**
   * The import flags sit between the fixed switches and `--convert-to` exactly when the
   * source is a PDF and the target a Word format; a Word-to-PDF run never carries them.
   */
  lemma ImportFlagsIffPdfToWord(soffice: string, extension: string, targetFormat: string, input: string, outdir: string)
    ensures var args := FallbackArgs(soffice, extension, targetFormat, input, outdir);
      (PdfImportFilter in args[1..|args| - 5]) <==> IsWordFormat(targetFormat) && IsPdfSource(extension)
    ensures var args := FallbackArgs(soffice, extension, "pdf", input, outdir);
      args == [soffice] + QuietSwitches + ["--convert-to", "pdf", input, "--outdir", outdir]
  {
    var args := FallbackArgs(soffice, extension, targetFormat, input, outdir);
    if UsesPdfImport(extension, targetFormat) {
      assert args[1..|args| - 5][5] == PdfImportFilter;
    } else {
      assert args[1..|args| - 5] == QuietSwitches;
    }
  }

  /**
   * What `convertFile` decides before launching: the filter, the import flags, the
   * fallback arguments and, for PDF to Word, the text-layer probe. The probe's verdict is
   * only logged.
   */
  datatype Plan = Plan(params: string, pdfImport: bool, fallbackArgs: seq<string>, textProbe: Option<bool>)

  function PlanConversion(soffice: string, extension: string, targetFormat: string, input: string, outdir: string,
                          inputBytes: Option<seq<byte>>): (p: Plan)
    ensures p.params == ConvertParams(targetFormat)
    ensures p.pdfImport == UsesPdfImport(extension, targetFormat)
    ensures p.textProbe.Some? <==> p.pdfImport
    ensures p.textProbe.Some? ==> p.textProbe.value == IsPdfWithText(inputBytes)
  {
    var pdfImport := UsesPdfImport(extension, targetFormat);
    Plan(ConvertParams(targetFormat), pdfImport,
         FallbackArgs(soffice, extension, targetFormat, input, outdir),
         if pdfImport then Some(IsPdfWithText(inputBytes)) else None)
  }

  /** Whether the PDF looks scanned or not, the command is the same. */
  lemma TextProbeDoesNotChangeCommand(soffice: string, extension: string, targetFormat: string, input: string,
                                      outdir: string, b1: Option<seq<byte>>, b2: Option<seq<byte>>)
    ensures var p1 := PlanConversion(soffice, extension, targetFormat, input, outdir, b1);
      var p2 := PlanConversion(soffice, extension, targetFormat, input, outdir, b2);
      p1.params == p2.params && p1.pdfImport == p2.pdfImport && p1.fallbackArgs == p2.fallbackArgs
  {
  }
}

=== FILE: convert_output.dfy ===
/**
 * The checks `convertFile` makes after LibreOffice has run: the exit code, and the
 * search of the output directory when the expected output file is missing. The
 * directory is the list of entry names in the order the directory stream yields them.
 */
module ConvertOutput {
  import opened Common
  import opened Text

  /**
   * `inputFileName.replaceFirst("\\.[^.]+$", "." + targetFormat)`: the regex matches the
   * last '.' and the non-empty run after it, so a name without '.', or ending in '.', is
   * returned unchanged.
   */
  function ExpectedOutputName(inputName: string, targetFormat: string): (e: string)
    ensures '.' !in inputName || inputName[|inputName| - 1] == '.' ==> e == inputName
  {
    var dot := LastIndexOf(inputName, '.');
    if dot == -1 || dot == |inputName| - 1 then inputName
    else inputName[..dot] + "." + targetFormat
  }

  /** The name LibreOffice is expected to write for `stem.ext` is `stem.target`. */
  lemma ExpectedNameOfJoin(stem: string, ext: string, targetFormat: string)
    requires |ext| > 0 && '.' !in ext
    ensures ExpectedOutputName(stem + "." + ext, targetFormat) == stem + "." + targetFormat
  {
    var s := stem + "." + ext;
    forall j | |stem| < j < |s| ensures s[j] != '.' {
      assert s[j] == ext[j - |stem| - 1];
    }
    LastIndexOfAt(s, '.', |stem|);
    assert s[..|stem|] == stem;
  }

  /** The four ways an entry may match the expected name, in the order they are tried. */
  datatype Rule = Exact | IgnoreCase | Normalized | Prefix

  /** The verdict on one entry; `PrefixOutOfRange` is the `substring` that throws. */
  datatype Verdict = Hit(rule: Rule) | Miss | PrefixOutOfRange

  /** `replaceAll("\\s+", "").toLowerCase()`. */
  function Normalize(s: string): (r: string)
    ensures |r| <= |s|
    ensures forall i :: 0 <= i < |r| ==> !IsWhitespace(r[i]) && LowerChar(r[i]) == r[i]
  {
    ToLower(RemoveWhitespace(s))
  }

  /** Names equal ignoring case are equal once normalised: the third rule accepts whatever the second does. */
  lemma NormalizeSubsumesIgnoreCase(a: string, b: string)
    requires EqualsIgnoreCase(a, b)
    ensures Normalize(a) == Normalize(b)
  {
    LowerCommutesWithRemoveWhitespace(a);
    LowerCommutesWithRemoveWhitespace(b);
  }

  /** Normalisation does not see a whitespace character anywhere in the name. */
  lemma NormalizeSkipsWhitespace(a: string, c: char, b: string)
    requires IsWhitespace(c)
    ensures Normalize(a + [c] + b) == Normalize(a + b)
  {
    RemoveWhitespaceAppend(a + [c], b);
    RemoveWhitespaceAppend(a, [c]);
    RemoveWhitespaceAppend(a, b);
    RemoveWhitespaceDropsBlank(c);
    assert RemoveWhitespace(a) + RemoveWhitespace([c]) == RemoveWhitespace(a);
  }

  /**
   * `Math.max(10, expected.length() - 5)`, in UTF-16 code units: how much of the expected
   * name a prefix match needs. It fits the name exactly when the name has 10 or more units,
   * and then leaves off the last five once the name has 15 or more.
   */
  function PrefixLength(expected: string): (p: int)
    ensures p >= 10
    ensures p <= JavaLength(expected) <==> JavaLength(expected) >= 10
    ensures JavaLength(expected) >= 15 ==> JavaLength(expected) - p == 5
  {
    Max(10, JavaLength(expected) - 5)
  }

  /** Whether `rule` accepts `entry` for `expected`, each rule stated on its own. */
  predicate RuleHolds(rule: Rule, entry: string, expected: string) {
    match rule
    case Exact => entry == expected
    case IgnoreCase => EqualsIgnoreCase(entry, expected)
    case Normalized => Normalize(entry) == Normalize(expected)
    case Prefix =>
      JavaLength(expected) >= 10 && StartsWith(Utf16(entry), Utf16(expected)[..PrefixLength(expected)])
  }

  predicate EarlierRulesFail(rule: Rule, entry: string, expected: string) {
    && (rule != Exact ==> !RuleHolds(Exact, entry, expected))
    && (rule !in {Exact, IgnoreCase} ==> !RuleHolds(IgnoreCase, entry, expected))
    && (rule == Prefix ==> !RuleHolds(Normalized, entry, expected))
  }

  /** The body of the directory loop for one entry. */
  function CheckEntry(entry: string, expected: string): (v: Verdict)
    ensures v.Hit? ==> RuleHolds(v.rule, entry, expected) && EarlierRulesFail(v.rule, entry, expected)
    ensures v.Miss? <==> JavaLength(expected) >= 10 && forall r: Rule :: !RuleHolds(r, entry, expected)
    ensures v.PrefixOutOfRange? <==>
      JavaLength(expected) < 10 && !RuleHolds(Exact, entry, expected) && !RuleHolds(IgnoreCase, entry, expected)
        && !RuleHolds(Normalized, entry, expected)
  {
    if entry == expected then
      assert RuleHolds(Exact, entry, expected);
      Hit(Exact)
    else if EqualsIgnoreCase(entry, expected) then
      assert RuleHolds(IgnoreCase, entry, expected);
      Hit(IgnoreCase)
    else if Normalize(entry) == Normalize(expected) then
      assert RuleHolds(Normalized, entry, expected);
      Hit(Normalized)
    else if JavaLength(expected) < 10 then PrefixOutOfRange
    else if StartsWith(Utf16(entry), Utf16(expected)[..PrefixLength(expected)]) then
      assert RuleHolds(Prefix, entry, expected);
      Hit(Prefix)
    else Miss
  }

  /**
   * Lengths are Java's: a stem of five characters outside the Basic Multilingual Plane plus
   * ".pdf" is nine characters but fourteen code units, so the prefix rule compares ten
   * units with any entry instead of throwing.
   */
  lemma SupplementaryStemIsLongEnough(c: char, entry: string)
    requires c as int >= 0x1_0000
    ensures var expected := [c, c, c, c, c] + ".pdf";
      && |expected| == 9 && JavaLength(expected) == 14
      && !CheckEntry(entry, expected).PrefixOutOfRange?
  {
    var e := [c];
    assert Utf16(e) == CodeUnits(c) + Utf16([]) by { assert e[1..] == []; }
    Utf16Append(e, e);
    Utf16Append(e + e, e);
    Utf16Append(e + e + e, e);
    Utf16Append(e + e + e + e, e);
    assert e + e + e + e + e == [c, c, c, c, c];
    Utf16Append([c, c, c, c, c], ".pdf");
    Utf16OfBmp(".pdf");
  }

  /** The outcome of the directory loop: the entry to move, none, or the exception. */
  datatype Resolution = Found(index: nat, rule: Rule) | NoMatch | OutOfRange

  /** The loop over the directory: the first entry with a verdict other than `Miss` decides. */
  function Resolve(listing: seq<string>, expected: string): (r: Resolution)
    ensures r.Found? ==>
      && r.index < |listing|
      && CheckEntry(listing[r.index], expected) == Hit(r.rule)
      && forall j :: 0 <= j < r.index ==> CheckEntry(listing[j], expected).Miss?
    ensures r.NoMatch? <==> forall j :: 0 <= j < |listing| ==> CheckEntry(listing[j], expected).Miss?
    ensures r.OutOfRange? ==>
      exists i :: 0 <= i < |listing| && CheckEntry(listing[i], expected).PrefixOutOfRange?
        && forall j :: 0 <= j < i ==> CheckEntry(listing[j], expected).Miss?
    decreases |listing|
  {
    if |listing| == 0 then NoMatch
    else
      var v := CheckEntry(listing[0], expected);
      if v.Hit? then Found(0, v.rule)
      else if v.PrefixOutOfRange? then OutOfRange
      else
        var rest := Resolve(listing[1..], expected);
        if rest.Found? then Found(rest.index + 1, rest.rule) else rest
  }

  /** What the process left behind; starting it can fail before any exit code exists. */
  datatype ProcessRun =
    | NotStarted(message: Option<string>)
    | Exited(exitCode: int, output: string, outputExists: bool, listing: seq<string>)

  /** The exceptions `convertFile` throws once the process has been started. */
  datatype ConvertError =
    | LaunchError(message: Option<string>)
    | NonZeroExit(exitCode: int, output: string)
    | OutputMissing(outputPath: string)
    | PrefixOutOfBounds(end: int, length: int)

  /** A conversion leaves the output in place, moves a found entry onto it, or fails. */
  datatype Conversion = Produced | RenamedFrom(entry: string) | Failed(error: ConvertError)

  /**
   * The tail of `convertFile`. A non-zero exit always fails. With a zero exit and the
   * output missing, the first matching entry is moved onto the output path; no match is
   * reported with the plain "file does not exist" message, because the richer message
   * built beside it is caught and replaced by the enclosing `catch (IOException)`.
   */
  function FinishConversion(run: ProcessRun, inputName: string, targetFormat: string, outputPath: string)
    : (c: Conversion)
    ensures run.NotStarted? ==> c == Failed(LaunchError(run.message))
    ensures run.Exited? && run.exitCode != 0 ==> c == Failed(NonZeroExit(run.exitCode, run.output))
    ensures run.Exited? && run.exitCode == 0 && run.outputExists ==> c == Produced
    ensures c.RenamedFrom? ==>
      run.Exited? && run.exitCode == 0 && !run.outputExists && c.entry in run.listing
      && exists r: Rule :: RuleHolds(r, c.entry, ExpectedOutputName(inputName, targetFormat))
    ensures run.Exited? && run.exitCode == 0 && !run.outputExists ==>
      var expected := ExpectedOutputName(inputName, targetFormat);
      var r := Resolve(run.listing, expected);
      && (r.Found? ==> c == RenamedFrom(run.listing[r.index]))
      && (r.OutOfRange? ==> c == Failed(PrefixOutOfBounds(10, JavaLength(expected))))
    ensures c == Failed(OutputMissing(outputPath)) <==>
      run.Exited? && run.exitCode == 0 && !run.outputExists
      && (|run.listing| > 0 ==> JavaLength(ExpectedOutputName(inputName, targetFormat)) >= 10)
      && forall j :: 0 <= j < |run.listing| ==>
        forall r: Rule :: !RuleHolds(r, run.listing[j], ExpectedOutputName(inputName, targetFormat))
  {
    match run
    case NotStarted(message) => Failed(LaunchError(message))
    case Exited(code, output, exists_, listing) =>
      if code != 0 then Failed(NonZeroExit(code, output))
      else if exists_ then Produced
      else
        var expected := ExpectedOutputName(inputName, targetFormat);
        match Resolve(listing, expected)
        case Found(i, _) => RenamedFrom(listing[i])
        case NoMatch => Failed(OutputMissing(outputPath))
        case OutOfRange => Failed(PrefixOutOfBounds(10, JavaLength(expected)))
  }

  const NonZeroExitPrefix: string := "LibreOffice转换失败，退出码: "
  const OutputMissingPrefix: string := "转换后的文件不存在: "

  /** The non-zero-exit text: the prefix, the exit code, then the process output. */
  function NonZeroExitMessage(code: int, output: string): (m: string)
    ensures StartsWith(m, NonZeroExitPrefix) && EndsWith(m, output)
    ensures var k := |NonZeroExitPrefix|;
      && k + |IntToString(code)| <= |m|
      && m[k..k + |IntToString(code)|] == IntToString(code)
      && m[k + |IntToString(code)|..] == ", 输出: " + output
  {
    ThreeParts(NonZeroExitPrefix, IntToString(code), ", 输出: " + output);
    EndsOfRest(NonZeroExitPrefix + IntToString(code), ", 输出: ", output);
    NonZeroExitPrefix + IntToString(code) + (", 输出: " + output)
  }

  /** `getMessage()` of each exception; the out-of-range text is the running JDK's `substring` message. */
  function ErrorMessage(e: ConvertError, jdk: Jdk): (m: Option<string>)
    ensures e.OutputMissing? ==> m.Some? && StartsWith(m.value, OutputMissingPrefix) && EndsWith(m.value, e.outputPath)
    ensures e.NonZeroExit? ==> m.Some? && StartsWith(m.value, NonZeroExitPrefix) && EndsWith(m.value, e.output)
    ensures e.NonZeroExit? ==> var k := |NonZeroExitPrefix|;
      m.Some? && k + |IntToString(e.exitCode)| <= |m.value|
      && m.value[k..k + |IntToString(e.exitCode)|] == IntToString(e.exitCode)
      && m.value[k + |IntToString(e.exitCode)|..] == ", 输出: " + e.output
    ensures e.LaunchError? ==> m == e.message
    ensures !e.LaunchError? ==> m.Some?
    ensures e.PrefixOutOfBounds? && jdk.Jdk8? && e.end > e.length ==> m == Some("String index out of range: " + IntToString(e.end))
    ensures e.PrefixOutOfBounds? && jdk.Jdk9To17? ==>
      m.Some? && EndsWith(m.value, ", length " + IntToString(e.length))
    ensures e.PrefixOutOfBounds? && jdk.Jdk21? ==>
      m.Some? && StartsWith(m.value, "Range [" + IntToString(0) + ", ") && EndsWith(m.value, RangeOutOfBounds + IntToString(e.length))
    ensures e.PrefixOutOfBounds? && jdk.Jdk9To17? ==> var k := |"begin " + IntToString(0) + ", end "|;
      m.Some? && k + |IntToString(e.end)| <= |m.value| && m.value[k..k + |IntToString(e.end)|] == IntToString(e.end)
    ensures e.PrefixOutOfBounds? && jdk.Jdk21? ==> var k := |"Range [" + IntToString(0) + ", "|;
      m.Some? && k + |IntToString(e.end)| <= |m.value| && m.value[k..k + |IntToString(e.end)|] == IntToString(e.end)
  {
    match e
    case LaunchError(message) => message
    case NonZeroExit(code, output) => Some(NonZeroExitMessage(code, output))
    case OutputMissing(path) => Some(OutputMissingPrefix + path)
    case PrefixOutOfBounds(end, length) =>
      Some(SubstringRangeMessage(jdk, 0, end, length))
  }

  /**
   * The staged source `stem.ext` satisfies the prefix rule for its own expected output
   * `stem.target`: both begin with `stem.`, which is at least as long as the prefix the
   * rule compares when the stem has nine or more characters and the target at most five.
   */
  lemma SourceMatchesOwnExpectedName(stem: string, ext: string, targetFormat: string)
    requires |ext| > 0 && '.' !in ext
    requires JavaLength(stem) >= 9 && JavaLength(targetFormat) <= 5
    ensures var expected := ExpectedOutputName(stem + "." + ext, targetFormat);
      JavaLength(expected) >= 10 && !CheckEntry(stem + "." + ext, expected).Miss?
      && !CheckEntry(stem + "." + ext, expected).PrefixOutOfRange?
  {
    var source := stem + "." + ext;
    ExpectedNameOfJoin(stem, ext, targetFormat);
    var expected := stem + "." + targetFormat;
    Utf16Append(stem, ".");
    Utf16Append(stem + ".", ext);
    Utf16Append(stem + ".", targetFormat);
    var front := Utf16(stem + ".");
    assert |Utf16(".")| == 1 by { assert "."[1..] == ""; }
    assert Utf16(source) == front + Utf16(ext);
    assert Utf16(expected) == front + Utf16(targetFormat);
    var p := PrefixLength(expected);
    assert p <= |front|;
    assert Utf16(source)[..p] == front[..p] == Utf16(expected)[..p];
    assert RuleHolds(Prefix, source, expected);
  }

  /**
   * Output resolution cannot report "not found" while the staged source is in the
   * directory: the search stops at the source or at an earlier entry.
   */
  lemma {:induction false} SourceInListingIsFound(listing: seq<string>, i: nat, stem: string, ext: string, targetFormat: string)
    requires |ext| > 0 && '.' !in ext
    requires JavaLength(stem) >= 9 && JavaLength(targetFormat) <= 5
    requires i < |listing| && listing[i] == stem + "." + ext
    ensures var r := Resolve(listing, ExpectedOutputName(stem + "." + ext, targetFormat));
      r.Found? && r.index <= i
  {
    var expected := ExpectedOutputName(stem + "." + ext, targetFormat);
    SourceMatchesOwnExpectedName(stem, ext, targetFormat);
    assert !CheckEntry(listing[i], expected).Miss?;
  }

  /**
   * A zero exit that produced nothing still succeeds: with only the staged source in the
   * directory, the source itself is moved onto the output path.
   */
  lemma ZeroExitWithoutOutputRenamesSource(stem: string, ext: string, targetFormat: string, output: string, outputPath: string)
    requires |ext| > 0 && '.' !in ext
    requires JavaLength(stem) >= 9 && JavaLength(targetFormat) <= 5
    ensures FinishConversion(Exited(0, output, false, [stem + "." + ext]), stem + "." + ext, targetFormat, outputPath)
      == RenamedFrom(stem + "." + ext)
  {
    SourceInListingIsFound([stem + "." + ext], 0, stem, ext, targetFormat);
  }
}

=== FILE: convert_task.dfy ===
/**
 * The task record `ConvertTask`: a mutable bean modelled as an immutable value whose
 * setters return the updated record. Every field is a nullable Java reference.
 */
module ConvertTask {
  import opened Common
  import opened TaskStatus

  datatype Task = Task(
    taskId: Option<string>,
    originalFilename: Option<string>,
    status: Option<Status>,
    fileUrl: Option<string>,
    errorMessage: Option<string>,
    createTime: Option<Tick>,
    updateTime: Option<Tick>)

  /** The no-argument constructor: every field, the status included, is null. */
  function Blank(): (t: Task)
    ensures t.status.None? && t.taskId.None? && t.originalFilename.None?
    ensures t.fileUrl.None? && t.errorMessage.None?
    ensures t.createTime.None? && t.updateTime.None?
  {
    Task(None, None, None, None, None, None, None)
  }

  /**
   * The two-argument constructor. It reads the clock twice, once per timestamp,
   * so `created` and `updated` are two separate readings.
   */
  function New(id: string, name: string, created: Tick, updated: Tick): (t: Task)
    ensures t.taskId == Some(id) && t.originalFilename == Some(name)
    ensures t.status == Some(Pending)
    ensures t.createTime == Some(created) && t.updateTime == Some(updated)
    ensures t.fileUrl.None? && t.errorMessage.None?
  {
    Task(Some(id), Some(name), Some(Pending), None, None, Some(created), Some(updated))
  }

  /** One call of a setter; `WriteStatus` carries the clock reading `setStatus` takes. */
  datatype Write =
    | WriteTaskId(id: Option<string>)
    | WriteOriginalFilename(name: Option<string>)
    | WriteStatus(status: Option<Status>, now: Tick)
    | WriteFileUrl(url: Option<string>)
    | WriteErrorMessage(message: Option<string>)
    | WriteCreateTime(time: Option<Tick>)
    | WriteUpdateTime(time: Option<Tick>)

  /** `setStatus`: stores the status and refreshes `updateTime` with the current time. */
  function SetStatus(t: Task, s: Option<Status>, now: Tick): (r: Task)
    ensures r.status == s && r.updateTime == Some(now)
    ensures r.taskId == t.taskId && r.originalFilename == t.originalFilename && r.createTime == t.createTime
    ensures r.fileUrl == t.fileUrl && r.errorMessage == t.errorMessage
  {
    t.(status := s, updateTime := Some(now))
  }

  /** `setFileUrl`: a plain field write. */
  function SetFileUrl(t: Task, url: Option<string>): (r: Task)
    ensures r.fileUrl == url
    ensures r.taskId == t.taskId && r.originalFilename == t.originalFilename && r.status == t.status
    ensures r.errorMessage == t.errorMessage && r.createTime == t.createTime && r.updateTime == t.updateTime
  {
    t.(fileUrl := url)
  }

  /** `setErrorMessage`: a plain field write. */
  function SetErrorMessage(t: Task, message: Option<string>): (r: Task)
    ensures r.errorMessage == message
    ensures r.taskId == t.taskId && r.originalFilename == t.originalFilename && r.status == t.status
    ensures r.fileUrl == t.fileUrl && r.createTime == t.createTime && r.updateTime == t.updateTime
  {
    t.(errorMessage := message)
  }

  /** The effect of one setter call on the record. */
  function Apply(t: Task, w: Write): Task {
    match w
    case WriteTaskId(id) => t.(taskId := id)
    case WriteOriginalFilename(name) => t.(originalFilename := name)
    case WriteStatus(s, now) => SetStatus(t, s, now)
    case WriteFileUrl(url) => SetFileUrl(t, url)
    case WriteErrorMessage(m) => SetErrorMessage(t, m)
    case WriteCreateTime(time) => t.(createTime := time)
    case WriteUpdateTime(time) => t.(updateTime := time)
  }

  /** The record after the setter calls `ws`, in order. */
  function ApplyAll(t: Task, ws: seq<Write>): Task
    decreases |ws|
  {
    if |ws| == 0 then t else ApplyAll(Apply(t, ws[0]), ws[1..])
  }

  /**
   * An independent reading of the same history: the value of the last write in `ws`
   * that `pick` recognises, or `current` when there is none.
   */
  function LastWritten<V>(ws: seq<Write>, pick: Write -> Option<V>, current: V): V
    decreases |ws|
  {
    if |ws| == 0 then current
    else match pick(ws[|ws| - 1])
      case Some(v) => v
      case None => LastWritten(ws[..|ws| - 1], pick, current)
  }

  function PickTaskId(w: Write): Option<Option<string>> {
    if w.WriteTaskId? then Some(w.id) else None
  }

  function PickOriginalFilename(w: Write): Option<Option<string>> {
    if w.WriteOriginalFilename? then Some(w.name) else None
  }

  function PickStatus(w: Write): Option<Option<Status>> {
    if w.WriteStatus? then Some(w.status) else None
  }

  function PickFileUrl(w: Write): Option<Option<string>> {
    if w.WriteFileUrl? then Some(w.url) else None
  }

  function PickErrorMessage(w: Write): Option<Option<string>> {
    if w.WriteErrorMessage? then Some(w.message) else None
  }

  function PickCreateTime(w: Write): Option<Option<Tick>> {
    if w.WriteCreateTime? then Some(w.time) else None
  }

  /** `updateTime` is written by its own setter and, as a side effect, by `setStatus`. */
  function PickUpdateTime(w: Write): Option<Option<Tick>> {
    match w
    case WriteUpdateTime(time) => Some(time)
    case WriteStatus(_, now) => Some(Some(now))
    case _ => None
  }

  /** Each field of the record is the one last written to it. */
  predicate Reflects(t: Task, start: Task, ws: seq<Write>) {
    && t.taskId == LastWritten(ws, PickTaskId, start.taskId)
    && t.originalFilename == LastWritten(ws, PickOriginalFilename, start.originalFilename)
    && t.status == LastWritten(ws, PickStatus, start.status)
    && t.fileUrl == LastWritten(ws, PickFileUrl, start.fileUrl)
    && t.errorMessage == LastWritten(ws, PickErrorMessage, start.errorMessage)
    && t.createTime == LastWritten(ws, PickCreateTime, start.createTime)
    && t.updateTime == LastWritten(ws, PickUpdateTime, start.updateTime)
  }

  lemma {:induction false} ApplyAllSnoc(t: Task, ws: seq<Write>, w: Write)
    ensures ApplyAll(t, ws + [w]) == Apply(ApplyAll(t, ws), w)
    decreases |ws|
  {
    if |ws| == 0 {
      assert ws + [w] == [w];
    } else {
      assert (ws + [w])[1..] == ws[1..] + [w];
      ApplyAllSnoc(Apply(t, ws[0]), ws[1..], w);
    }
  }

  /**
   * Every getter returns the value last passed to the matching setter (or the initial
   * value when there was none); `getUpdateTime` also sees the time each `setStatus` wrote.
   */
  lemma {:induction false} GettersReturnLastWrite(t: Task, ws: seq<Write>)
    ensures Reflects(ApplyAll(t, ws), t, ws)
    decreases |ws|
  {
    if |ws| == 0 {
    } else {
      var init := ws[..|ws| - 1];
      var w := ws[|ws| - 1];
      assert ws == init + [w];
      GettersReturnLastWrite(t, init);
      ApplyAllSnoc(t, init, w);
      LastWriteWins(ApplyAll(t, init), t, ws);
    }
  }

  /** One more setter call keeps every field equal to its last write. */
  lemma LastWriteWins(a: Task, start: Task, ws: seq<Write>)
    requires |ws| > 0 && Reflects(a, start, ws[..|ws| - 1])
    ensures Reflects(Apply(a, ws[|ws| - 1]), start, ws)
  {
    var w := ws[|ws| - 1];
    match w
    case WriteTaskId(_) =>
    case WriteOriginalFilename(_) =>
    case WriteStatus(_, _) =>
    case WriteFileUrl(_) =>
    case WriteErrorMessage(_) =>
    case WriteCreateTime(_) =>
    case WriteUpdateTime(_) =>
  }

  /**
   * Setters on different fields commute, and a second `setStatus` overrides the first one
   * entirely, its clock reading included.
   */
  lemma SettersCommute(t: Task, s1: Option<Status>, n1: Tick, s2: Option<Status>, n2: Tick,
                       url: Option<string>, message: Option<string>)
    ensures SetFileUrl(SetErrorMessage(t, message), url) == SetErrorMessage(SetFileUrl(t, url), message)
    ensures SetStatus(SetFileUrl(t, url), s1, n1) == SetFileUrl(SetStatus(t, s1, n1), url)
    ensures SetStatus(SetErrorMessage(t, message), s1, n1) == SetErrorMessage(SetStatus(t, s1, n1), message)
    ensures SetStatus(SetStatus(t, s1, n1), s2, n2) == SetStatus(t, s2, n2)
  {
  }
}

=== FILE: file_type.dfy ===
/**
 * File-type recognition and file naming in `ConvertServiceImpl`: extension extraction,
 * the two sniffers (Word and PDF), the staged and target names, and the content type
 * the upload declares.
 */
module FileType {
  import opened Common
  import opened Text

  const MsWordType: string := "application/msword"
  const OoxmlWordType: string := "application/vnd.openxmlformats-officedocument.wordprocessingml.document"
  const PdfType: string := "application/pdf"

  /** OLE2 compound file: D0 CF 11 E0. */
  const DocMagic: seq<byte> := [0xD0, 0xCF, 0x11, 0xE0]
  /** ZIP local file header: 50 4B 03 04. */
  const ZipMagic: seq<byte> := [0x50, 0x4B, 0x03, 0x04]
  /** ASCII "%PDF": 25 50 44 46. */
  const PdfMagic: seq<byte> := [0x25, 0x50, 0x44, 0x46]

  /** The sniffers read into an 8-byte buffer with a single `read` call. */
  const HeaderBufferSize: nat := 8

  /** `getFileExtension`: the lower-cased text after the last '.', or "" when there is no '.'. */
  function GetFileExtension(name: string): (ext: string)
    ensures '.' !in name ==> ext == ""
    ensures '.' in name ==>
      exists i :: 0 <= i < |name| && name[i] == '.' && '.' !in name[i + 1..] && ext == ToLower(name[i + 1..])
    ensures '.' !in ext
  {
    var dot := LastIndexOf(name, '.');
    if dot == -1 then ""
    else
      var ext := ToLower(name[dot + 1..]);
      assert forall k :: 0 <= k < |ext| ==> ext[k] != '.' by {
        forall k | 0 <= k < |ext| ensures ext[k] != '.' {
          assert name[dot + 1..][k] in name[dot + 1..];
        }
      }
      ext
  }

  /** In `stem + "." + e` the added '.' is followed by no other '.', when `e` has none. */
  lemma DotJoinShape(s: string, stem: string, e: string)
    requires '.' !in e
    requires s == stem + "." + e
    ensures s[|stem|] == '.'
    ensures forall j :: |stem| < j < |s| ==> s[j] != '.'
  {
    forall j | |stem| < j < |s| ensures s[j] != '.' {
      assert s[j] == e[j - |stem| - 1];
    }
  }

  /** The last '.' of `stem + "." + e` is the one added, when `e` has none. */
  lemma LastDotOfJoin(stem: string, e: string)
    requires '.' !in e
    ensures LastIndexOf(stem + "." + e, '.') == |stem|
  {
    var s := stem + "." + e;
    DotJoinShape(s, stem, e);
    LastIndexOfAt(s, '.', |stem|);
  }

  /** Renaming `p.e` to the target keeps `p` and appends the target extension. */
  lemma TargetNameOfJoin(p: string, e: string, targetExtension: string)
    requires '.' !in e
    ensures TargetName(p + "." + e, targetExtension) == Some(p + targetExtension)
  {
    LastDotOfJoin(p, e);
    assert (p + "." + e)[..|p|] == p;
  }

  /** Extraction undoes naming: the extension of `stem.e` is `e` lower-cased. */
  lemma ExtensionOfDottedName(stem: string, e: string)
    requires '.' !in e
    ensures GetFileExtension(stem + "." + e) == ToLower(e)
  {
    LastDotOfJoin(stem, e);
    assert (stem + "." + e)[|stem| + 1..] == e;
  }

  /** The bytes one `read(new byte[8])` delivers from the start of the upload. */
  function ReadHeader(content: seq<byte>): (h: seq<byte>)
    ensures |h| <= HeaderBufferSize && StartsWith(content, h)
  {
    content[..Min(HeaderBufferSize, |content|)]
  }

  /** At least four bytes were read and the first four are `magic`. */
  predicate HeaderIs(content: seq<byte>, magic: seq<byte>)
    requires |magic| == 4
  {
    var h := ReadHeader(content);
    |h| >= 4 && h[..4] == magic
  }

  /**
   * `determineActualFileType`: a claimed extension of doc/docx is trusted outright, then an
   * exact Word content type, then the first four bytes; anything else is unrecognised.
   */
  function DetermineActualFileType(ext: string, contentType: Option<string>, content: seq<byte>)
    : (r: Option<string>)
    ensures r.Some? ==> r.value == "doc" || r.value == "docx"
    ensures ext == "doc" || ext == "docx" ==> r == Some(ext)
    ensures ext != "doc" && ext != "docx" && contentType == Some(MsWordType) ==> r == Some("doc")
    ensures ext != "doc" && ext != "docx" && contentType == Some(OoxmlWordType) ==> r == Some("docx")
    ensures r.None? <==>
      && ext != "doc" && ext != "docx"
      && contentType != Some(MsWordType) && contentType != Some(OoxmlWordType)
      && !HeaderIs(content, DocMagic) && !HeaderIs(content, ZipMagic)
  {
    if ext == "doc" || ext == "docx" then Some(ext)
    else if contentType == Some(MsWordType) then Some("doc")
    else if contentType == Some(OoxmlWordType) then Some("docx")
    else if HeaderIs(content, DocMagic) then Some("doc")
    else if HeaderIs(content, ZipMagic) then Some("docx")
    else None
  }

  /** `determinePdfFileType`: the extension "pdf", then the content type, then "%PDF". */
  function DeterminePdfFileType(ext: string, contentType: Option<string>, content: seq<byte>)
    : (r: Option<string>)
    ensures r.Some? ==> r.value == "pdf"
    ensures ext == "pdf" || contentType == Some(PdfType) ==> r == Some("pdf")
    ensures r.None? <==> ext != "pdf" && contentType != Some(PdfType) && !HeaderIs(content, PdfMagic)
  {
    if ext == "pdf" then Some(ext)
    else if contentType == Some(PdfType) then Some("pdf")
    else if HeaderIs(content, PdfMagic) then Some("pdf")
    else None
  }

  /**
   * Precedence: once the extension or the content type decides, the bytes are never
   * consulted; otherwise only the first four bytes matter, and fewer than four bytes
   * decide nothing.
   */
  lemma SniffPrecedence(ext: string, contentType: Option<string>, c1: seq<byte>, c2: seq<byte>)
    ensures ext in {"doc", "docx"} || contentType in {Some(MsWordType), Some(OoxmlWordType)} ==>
      DetermineActualFileType(ext, contentType, c1) == DetermineActualFileType(ext, contentType, c2)
    ensures ext == "pdf" || contentType == Some(PdfType) ==>
      DeterminePdfFileType(ext, contentType, c1) == DeterminePdfFileType(ext, contentType, c2)
    ensures |c1| >= 4 && |c2| >= 4 && c1[..4] == c2[..4] ==>
      && DetermineActualFileType(ext, contentType, c1) == DetermineActualFileType(ext, contentType, c2)
      && DeterminePdfFileType(ext, contentType, c1) == DeterminePdfFileType(ext, contentType, c2)
    ensures |c1| < 4 ==>
      && DetermineActualFileType(ext, contentType, c1) == DetermineActualFileType(ext, contentType, [])
      && DeterminePdfFileType(ext, contentType, c1) == DeterminePdfFileType(ext, contentType, [])
  {
    if |c1| >= 4 && |c2| >= 4 && c1[..4] == c2[..4] {
      assert ReadHeader(c1)[..4] == c1[..4];
      assert ReadHeader(c2)[..4] == c2[..4];
    }
  }

  /** A recognised signature decides when neither the extension nor the content type did. */
  lemma SignatureDecides(ext: string, contentType: Option<string>, content: seq<byte>)
    requires |content| >= 4
    requires ext != "doc" && ext != "docx"
    requires contentType != Some(MsWordType) && contentType != Some(OoxmlWordType)
    ensures content[..4] == DocMagic ==> DetermineActualFileType(ext, contentType, content) == Some("doc")
    ensures content[..4] == ZipMagic ==> DetermineActualFileType(ext, contentType, content) == Some("docx")
    ensures ext != "pdf" && contentType != Some(PdfType) && content[..4] == PdfMagic ==>
      DeterminePdfFileType(ext, contentType, content) == Some("pdf")
  {
    assert ReadHeader(content)[..4] == content[..4];
  }

  /** `taskId + "_" + originalFilename`: the name the upload is staged under. */
  function StagedName(taskId: string, originalFilename: string): (s: string)
    ensures StartsWith(s, taskId) && EndsWith(s, originalFilename)
    ensures |s| == |taskId| + 1 + |originalFilename| && s[|taskId|] == '_'
  {
    taskId + "_" + originalFilename
  }

  /**
   * `staged.substring(0, staged.lastIndexOf('.')) + targetExtension`; `None` when the
   * staged name has no '.', where `substring(0, -1)` throws.
   */
  function TargetName(staged: string, targetExtension: string): (r: Option<string>)
    ensures r.None? <==> '.' !in staged
    ensures r.Some? ==>
      exists i :: 0 <= i < |staged| && staged[i] == '.' && '.' !in staged[i + 1..]
        && r.value == staged[..i] + targetExtension
  {
    var dot := LastIndexOf(staged, '.');
    if dot == -1 then None else Some(staged[..dot] + targetExtension)
  }

  /** A version-4 UUID string: 36 characters of lower-case hex digits and hyphens. */
  predicate IsUuid(id: string) {
    |id| == 36 && forall c :: c in id ==> c in "0123456789abcdef-"
  }

  /**
   * Staging and renaming with a UUID id: the target name exists exactly when the original
   * name has a '.', and then keeps the original stem and swaps its last extension.
   */
  lemma {:induction false} TargetNameOfStaged(taskId: string, originalFilename: string, targetExtension: string)
    requires '.' !in taskId
    ensures TargetName(StagedName(taskId, originalFilename), targetExtension).None? <==> '.' !in originalFilename
    ensures '.' in originalFilename ==>
      TargetName(StagedName(taskId, originalFilename), targetExtension)
        == Some(taskId + "_" + originalFilename[..LastIndexOf(originalFilename, '.')] + targetExtension)
  {
    var staged := StagedName(taskId, originalFilename);
    var pre := taskId + "_";
    assert staged == pre + originalFilename;
    if '.' in originalFilename {
      var d := LastIndexOf(originalFilename, '.');
      var stem := originalFilename[..d];
      var e := originalFilename[d + 1..];
      assert originalFilename == stem + "." + e;
      assert staged == (pre + stem) + "." + e;
      TargetNameOfJoin(pre + stem, e, targetExtension);
    } else {
      forall k | 0 <= k < |staged| ensures staged[k] != '.' {
        if k < |pre| {
          assert staged[k] == pre[k];
        } else {
          assert staged[k] == originalFilename[k - |pre|];
        }
      }
    }
  }

  /** A UUID has no '.'. */
  lemma UuidHasNoDot(id: string)
    requires IsUuid(id)
    ensures '.' !in id
  {
  }

  /** No name ends with both ".doc" and ".docx": their last characters differ. */
  lemma DocxIsNotDoc(fileName: string)
    ensures !(EndsWith(fileName, ".doc") && EndsWith(fileName, ".docx"))
  {
    if EndsWith(fileName, ".docx") {
      assert fileName[|fileName| - 1] == ".docx"[4] == 'x';
    }
  }

  /** `uploadToOss`: ".doc" names are Word 97, ".docx" names OOXML, everything else PDF. */
  function UploadContentType(fileName: string): (ct: string)
    ensures EndsWith(fileName, ".doc") ==> ct == MsWordType
    ensures EndsWith(fileName, ".docx") ==> ct == OoxmlWordType
    ensures !EndsWith(fileName, ".doc") && !EndsWith(fileName, ".docx") ==> ct == PdfType
  {
    DocxIsNotDoc(fileName);
    if EndsWith(fileName, ".doc") then MsWordType
    else if EndsWith(fileName, ".docx") then OoxmlWordType
    else PdfType
  }

  lemma ContentTypeOfPdfName(stem: string)
    ensures UploadContentType(stem + ".pdf") == PdfType
  {
    var n := stem + ".pdf";
    assert n[|n| - 1] == 'f';
  }

  lemma ContentTypeOfDocName(stem: string)
    ensures UploadContentType(stem + ".doc") == MsWordType
  {
    var n := stem + ".doc";
    assert n[|n| - 4..] == ".doc";
  }

  lemma ContentTypeOfDocxName(stem: string)
    ensures UploadContentType(stem + ".docx") == OoxmlWordType
  {
    var n := stem + ".docx";
    assert n[|n| - 5..] == ".docx";
  }

  /** The content type `uploadToOss` declares for a name with one of the three target extensions. */
  function FormatContentType(format: string): string {
    if format == "doc" then MsWordType else if format == "docx" then OoxmlWordType else PdfType
  }

  predicate IsTargetFormat(format: string) {
    format == "pdf" || format == "docx" || format == "doc"
  }

  /** The upload content type of `stem.format` for each of the three formats. */
  lemma ContentTypeOfFormat(stem: string, format: string)
    requires IsTargetFormat(format)
    ensures UploadContentType(stem + "." + format) == FormatContentType(format)
  {
    if format == "pdf" {
      assert stem + "." + format == stem + ".pdf";
      ContentTypeOfPdfName(stem);
    } else if format == "doc" {
      assert stem + "." + format == stem + ".doc";
      ContentTypeOfDocName(stem);
    } else {
      assert stem + "." + format == stem + ".docx";
      ContentTypeOfDocxName(stem);
    }
  }

  /**
   * The three target names the service derives are uploaded with the content type of the
   * format they name, and `getFileExtension` reads that format back from them.
   */
  lemma TargetNameTypes(staged: string, format: string)
    requires IsTargetFormat(format)
    requires '.' in staged
    ensures TargetName(staged, "." + format).Some?
    ensures GetFileExtension(TargetName(staged, "." + format).value) == format
    ensures UploadContentType(TargetName(staged, "." + format).value) == FormatContentType(format)
  {
    var stem := staged[..LastIndexOf(staged, '.')];
    var n := TargetName(staged, "." + format).value;
    assert n == stem + ("." + format);
    assert n == stem + "." + format;
    ExtensionOfDottedName(stem, format);
    TargetFormatsAreLowerCase(format);
    ContentTypeOfFormat(stem, format);
  }

  lemma TargetFormatsAreLowerCase(format: string)
    requires IsTargetFormat(format)
    ensures ToLower(format) == format
  {
    var l := ToLower(format);
    assert |l| == |format|;
    forall i | 0 <= i < |format| ensures l[i] == format[i] {
      assert format[i] in "docxpdf";
    }
  }
}

=== FILE: orchestrator.dfy ===
/**
 * The three background jobs of `ConvertServiceImpl`: `asyncConvertAndUpload` (Word to
 * PDF), `asyncConvertPdfToWord` (PDF to DOCX) and `asyncConvertPdfToDoc` (PDF to DOC).
 * Each marks the task PROCESSING, converts, uploads, and marks it COMPLETED with the URL
 * or FAILED with the exception's message. Only the Word-to-PDF job has a live `finally`
 * that deletes the local files.
 *
 * Conversion, upload and deletion are outcomes supplied by the caller; the job records
 * what it asks of the outside world as a sequence of events, next to the new registry.
 */
module Orchestrator {
  import opened Common
  import opened Text
  import opened TaskStatus
  import opened TaskRegistry
  import opened FileType
  import opened ConvertOutput

  datatype Variant = WordToPdf | PdfToDocx | PdfToDoc

  /** The `targetFormat` each job passes to `convertFile`. */
  function TargetFormat(v: Variant): (f: string)
    ensures IsTargetFormat(f)
    ensures v.WordToPdf? <==> f == "pdf"
  {
    match v
    case WordToPdf => "pdf"
    case PdfToDocx => "docx"
    case PdfToDoc => "doc"
  }

  /** The target formats are plain ASCII, so Java counts them as Dafny does. */
  lemma TargetFormatIsShort(v: Variant)
    ensures JavaLength(TargetFormat(v)) == |TargetFormat(v)| <= 4
  {
    Utf16OfBmp(TargetFormat(v));
  }

  /** Whether the job's `finally` block is live; the PDF jobs have theirs commented out. */
  predicate CleansUp(v: Variant) {
    v.WordToPdf?
  }

  /** A call that returns normally, or throws an exception whose message may be null. */
  datatype Step = Done | Threw(message: Option<string>)

  /** The OSS settings `uploadStream` reads: the object is stored under `folder + fileName`. */
  datatype Sink = Sink(urlPrefix: string, folder: string)

  function ObjectName(sink: Sink, fileName: string): string {
    sink.folder + fileName
  }

  /** The URL `uploadStream` returns for a stored object. */
  function ObjectUrl(sink: Sink, fileName: string): (url: string)
    ensures StartsWith(url, sink.urlPrefix) && EndsWith(url, fileName)
    ensures |url| == |sink.urlPrefix| + |sink.folder| + |fileName|
    ensures url[|sink.urlPrefix|..|sink.urlPrefix| + |sink.folder|] == sink.folder
  {
    sink.urlPrefix + ObjectName(sink, fileName)
  }

  /** What a job asks of the registry, the converter, the object store and the file system. */
  datatype Event =
    | MarkedProcessing(taskId: string)
    | ConvertRequested(source: string, target: string, format: string)
    | UploadRequested(objectName: string, contentType: string)
    | MarkedCompleted(taskId: string, url: string)
    | MarkedFailed(taskId: string, message: string)
    | DeleteRequested(fileName: string)

  predicate IsTerminalMark(e: Event) {
    e.MarkedCompleted? || e.MarkedFailed?
  }

  const UnknownError: string := "未知错误"

  /** `e.getMessage() != null ? e.getMessage() : "未知错误"`. */
  function FailureMessage(m: Option<string>): (s: string)
    ensures m.Some? ==> s == m.value
    ensures m.None? ==> s == UnknownError
  {
    m.GetOr(UnknownError)
  }

  /**
   * `convertFile` returns normally after producing or renaming the output, and throws
   * otherwise; the out-of-range message depends on the running JDK.
   */
  function ConversionStep(c: Conversion, jdk: Jdk): (s: Step)
    ensures s.Done? <==> c.Produced? || c.RenamedFrom?
    ensures s.Threw? ==> s.message == ConvertOutput.ErrorMessage(c.error, jdk)
  {
    if c.Failed? then Threw(ConvertOutput.ErrorMessage(c.error, jdk)) else Done
  }

  /**
   * The outside world as one job sees it: how conversion and upload end, whether deleting
   * the source throws, and the two instants at which the task is updated.
   */
  datatype Environment = Environment(
    convert: Step, upload: Step, sink: Sink, sourceDelete: Step, processingAt: Tick, finishedAt: Tick)

  datatype Run = Run(registry: Registry, events: seq<Event>)

  /** Whether both the conversion and the upload return normally. */
  predicate Succeeds(env: Environment) {
    env.convert.Done? && env.upload.Done?
  }

  /** The message the task is failed with: the conversion's if it threw, the upload's otherwise. */
  function FirstFailure(env: Environment): string
    requires !Succeeds(env)
  {
    FailureMessage(if env.convert.Threw? then env.convert.message else env.upload.message)
  }

  /**
   * The requests the `try` and `catch` blocks make: convert; upload if conversion returned;
   * then mark the task COMPLETED with the upload's URL, or FAILED with the first failure.
   */
  function AttemptEvents(taskId: string, source: string, target: string, format: string, env: Environment)
    : (es: seq<Event>)
    ensures |es| >= 2 && IsTerminalMark(es[|es| - 1])
    ensures es[|es| - 1].MarkedCompleted? <==> Succeeds(env)
    ensures es[0] == ConvertRequested(source, target, format)
    ensures forall j :: 0 <= j < |es| - 1 ==> StatusWritten(es[j]).None? && !es[j].DeleteRequested?
  {
    var convert := [ConvertRequested(source, target, format)];
    if env.convert.Threw? then
      convert + [MarkedFailed(taskId, FailureMessage(env.convert.message))]
    else
      var upload := [UploadRequested(ObjectName(env.sink, target), UploadContentType(target))];
      if env.upload.Threw? then convert + upload + [MarkedFailed(taskId, FailureMessage(env.upload.message))]
      else convert + upload + [MarkedCompleted(taskId, ObjectUrl(env.sink, target))]
  }

  /**
   * The `finally` block: delete the source, then the output. An `IOException` from the
   * first deletion is caught by the block's own handler, so the second is skipped.
   */
  function Cleanup(v: Variant, source: string, target: string, sourceDelete: Step): (es: seq<Event>)
    ensures forall j :: 0 <= j < |es| ==> es[j].DeleteRequested?
    ensures !CleansUp(v) ==> es == []
    ensures CleansUp(v) ==> |es| > 0 && es[0] == DeleteRequested(source)
    ensures CleansUp(v) ==> es[|es| - 1] == DeleteRequested(if sourceDelete.Done? then target else source)
  {
    if !CleansUp(v) then []
    else if sourceDelete.Done? then [DeleteRequested(source), DeleteRequested(target)]
    else [DeleteRequested(source)]
  }

  /** Every request of one job, in order: PROCESSING, the `try`/`catch` part, the `finally` part. */
  function Events(v: Variant, taskId: string, source: string, target: string, env: Environment): (es: seq<Event>)
    ensures |es| >= 3
    ensures es[0] == MarkedProcessing(taskId)
    ensures es[1] == ConvertRequested(source, target, TargetFormat(v))
  {
    [MarkedProcessing(taskId)] + AttemptEvents(taskId, source, target, TargetFormat(v), env)
      + Cleanup(v, source, target, env.sourceDelete)
  }

  /**
   * The upload is requested exactly when conversion returned, the task is marked COMPLETED
   * with the URL of the uploaded output exactly when the upload returned too, and otherwise
   * it is marked FAILED with the first failure's message.
   */
  lemma RequestsFollowOutcomes(v: Variant, taskId: string, source: string, target: string, env: Environment)
    ensures var es := Events(v, taskId, source, target, env);
      && (UploadRequested(ObjectName(env.sink, target), UploadContentType(target)) in es <==> env.convert.Done?)
      && (MarkedCompleted(taskId, ObjectUrl(env.sink, target)) in es <==> Succeeds(env))
      && (!Succeeds(env) ==> MarkedFailed(taskId, FirstFailure(env)) in es)
  {
    var attempt := AttemptEvents(taskId, source, target, TargetFormat(v), env);
    var cleanup := Cleanup(v, source, target, env.sourceDelete);
    assert Events(v, taskId, source, target, env) == [MarkedProcessing(taskId)] + attempt + cleanup;
    AttemptRequests(taskId, source, target, TargetFormat(v), env);
  }

  /** `RequestsFollowOutcomes` for the `try`/`catch` part on its own. */
  lemma AttemptRequests(taskId: string, source: string, target: string, format: string, env: Environment)
    ensures var es := AttemptEvents(taskId, source, target, format, env);
      && (UploadRequested(ObjectName(env.sink, target), UploadContentType(target)) in es <==> env.convert.Done?)
      && (MarkedCompleted(taskId, ObjectUrl(env.sink, target)) in es <==> Succeeds(env))
      && (!Succeeds(env) ==> MarkedFailed(taskId, FirstFailure(env)) in es)
  {
    var es := AttemptEvents(taskId, source, target, format, env);
    var convert := ConvertRequested(source, target, format);
    var upload := UploadRequested(ObjectName(env.sink, target), UploadContentType(target));
    if env.convert.Threw? {
      assert es == [convert, MarkedFailed(taskId, FirstFailure(env))];
    } else if env.upload.Threw? {
      assert es == [convert, upload, MarkedFailed(taskId, FirstFailure(env))];
    } else {
      assert es == [convert, upload, MarkedCompleted(taskId, ObjectUrl(env.sink, target))];
    }
  }

  /** One job from start to end for task `taskId`, staged source `source` and output name `target`. */
  function Orchestrate(v: Variant, reg: Registry, taskId: string, source: string, target: string, env: Environment)
    : (r: Run)
    ensures r.events == Events(v, taskId, source, target, env)
    ensures taskId !in reg ==> r.registry == reg
    ensures OthersUnchanged(reg, r.registry, taskId)
  {
    var processing := UpdateToProcessing(reg, taskId, env.processingAt);
    var finished :=
      if Succeeds(env) then UpdateToCompleted(processing, taskId, ObjectUrl(env.sink, target), env.finishedAt)
      else UpdateToFailed(processing, taskId, FirstFailure(env), env.finishedAt);
    Run(finished, Events(v, taskId, source, target, env))
  }

  /**
   * The task a job leaves behind: COMPLETED with the upload's URL exactly when conversion
   * and upload both succeed, FAILED with the first failure's message otherwise. The field
   * the outcome does not concern keeps the value it had before the job.
   */
  lemma FinalTask(v: Variant, reg: Registry, taskId: string, source: string, target: string, env: Environment)
    requires taskId in reg
    ensures var r := Orchestrate(v, reg, taskId, source, target, env);
      && taskId in r.registry
      && r.registry[taskId].taskId == reg[taskId].taskId
      && r.registry[taskId].originalFilename == reg[taskId].originalFilename
      && r.registry[taskId].createTime == reg[taskId].createTime
      && r.registry[taskId].updateTime == Some(env.finishedAt)
      && (r.registry[taskId].status == Some(Completed) <==> Succeeds(env))
      && (Succeeds(env) ==>
            r.registry[taskId].fileUrl == Some(ObjectUrl(env.sink, target))
            && r.registry[taskId].errorMessage == reg[taskId].errorMessage)
      && (!Succeeds(env) ==>
            r.registry[taskId].status == Some(Status.Failed)
            && r.registry[taskId].errorMessage == Some(FirstFailure(env))
            && r.registry[taskId].fileUrl == reg[taskId].fileUrl)
  {
  }

  /**
   * The order of a job: PROCESSING first, then conversion, then exactly one terminal mark,
   * and only deletions after it, as the `finally` block runs last.
   */
  lemma TerminalMarkIsUniqueAndLast(v: Variant, taskId: string, source: string, target: string,
                                                       env: Environment)
    ensures var es := Events(v, taskId, source, target, env);
      exists t :: 2 <= t < |es| && IsTerminalMark(es[t])
        && (forall j :: 0 <= j < t ==> !IsTerminalMark(es[j]) && !es[j].DeleteRequested?)
        && (forall j :: t < j < |es| ==> es[j].DeleteRequested?)
  {
    var attempt := AttemptEvents(taskId, source, target, TargetFormat(v), env);
    var cleanup := Cleanup(v, source, target, env.sourceDelete);
    assert Events(v, taskId, source, target, env) == [MarkedProcessing(taskId)] + attempt + cleanup;
    MarkBeforeDeletions([MarkedProcessing(taskId)] + attempt, cleanup);
  }

  /** Events ending in their only terminal mark, followed by deletions only. */
  lemma MarkBeforeDeletions(tried: seq<Event>, cleanup: seq<Event>)
    requires |tried| >= 3 && IsTerminalMark(tried[|tried| - 1])
    requires forall j :: 0 <= j < |tried| - 1 ==> !IsTerminalMark(tried[j]) && !tried[j].DeleteRequested?
    requires forall j :: 0 <= j < |cleanup| ==> cleanup[j].DeleteRequested?
    ensures var es := tried + cleanup;
      exists t :: 2 <= t < |es| && IsTerminalMark(es[t])
        && (forall j :: 0 <= j < t ==> !IsTerminalMark(es[j]) && !es[j].DeleteRequested?)
        && (forall j :: t < j < |es| ==> es[j].DeleteRequested?)
  {
    var es := tried + cleanup;
    var t := |tried| - 1;
    assert es[t] == tried[t];
    forall j | 0 <= j < t ensures !IsTerminalMark(es[j]) && !es[j].DeleteRequested? {
      assert es[j] == tried[j];
    }
    forall j | t < j < |es| ensures es[j].DeleteRequested? {
      assert es[j] == cleanup[j - t - 1];
    }
  }

  /**
   * Local files: the PDF jobs never delete anything. The Word-to-PDF job always asks to
   * delete the source, and asks to delete the output last unless deleting the source threw.
   */
  lemma DeletionsPerVariant(v: Variant, taskId: string, source: string, target: string, env: Environment)
    ensures var es := Events(v, taskId, source, target, env);
      && (!CleansUp(v) ==> forall j :: 0 <= j < |es| ==> !es[j].DeleteRequested?)
      && (CleansUp(v) ==> DeleteRequested(source) in es)
      && (CleansUp(v) ==> es[|es| - 1] == DeleteRequested(if env.sourceDelete.Done? then target else source))
  {
    var attempt := AttemptEvents(taskId, source, target, TargetFormat(v), env);
    var cleanup := Cleanup(v, source, target, env.sourceDelete);
    var es := Events(v, taskId, source, target, env);
    var t := |attempt| + 1;
    if CleansUp(v) {
      assert es[t] == cleanup[0];
    } else {
      assert es == [MarkedProcessing(taskId)] + attempt;
    }
  }

  /** The status an event writes into the registry, if any. */
  function StatusWritten(e: Event): Option<Status> {
    match e
    case MarkedProcessing(_) => Some(Processing)
    case MarkedCompleted(_, _) => Some(Completed)
    case MarkedFailed(_, _) => Some(Status.Failed)
    case _ => None
  }

  /** The statuses written, in order. */
  function WrittenStatuses(es: seq<Event>): (ss: seq<Status>)
    ensures |ss| <= |es|
  {
    if |es| == 0 then []
    else
      var last := StatusWritten(es[|es| - 1]);
      WrittenStatuses(es[..|es| - 1]) + (if last.Some? then [last.value] else [])
  }

  lemma {:induction false} WrittenStatusesAppend(a: seq<Event>, b: seq<Event>)
    ensures WrittenStatuses(a + b) == WrittenStatuses(a) + WrittenStatuses(b)
    decreases |b|
  {
    if |b| == 0 {
      assert a + b == a;
    } else {
      var b' := b[..|b| - 1];
      assert (a + b)[..|a + b| - 1] == a + b';
      WrittenStatusesAppend(a, b');
    }
  }

  /** A job writes exactly two statuses: PROCESSING, then COMPLETED or FAILED by its outcome. */
  lemma StatusesWritten(v: Variant, taskId: string, source: string, target: string, env: Environment)
    ensures WrittenStatuses(Events(v, taskId, source, target, env))
      == [Processing, if Succeeds(env) then Completed else Status.Failed]
  {
    var attempt := AttemptEvents(taskId, source, target, TargetFormat(v), env);
    var cleanup := Cleanup(v, source, target, env.sourceDelete);
    assert Events(v, taskId, source, target, env) == [MarkedProcessing(taskId)] + attempt + cleanup;
    AttemptWritesTerminal(taskId, source, target, TargetFormat(v), env);
    HistoryOf(taskId, attempt, cleanup, if Succeeds(env) then Completed else Status.Failed);
  }

  /** A task created PENDING only moves forward, in the order the enum declares, during a job. */
  lemma StatusesOnlyAdvance(v: Variant, taskId: string, source: string, target: string, env: Environment)
    ensures Advances([Pending] + WrittenStatuses(Events(v, taskId, source, target, env)))
  {
    var terminal := if Succeeds(env) then Completed else Status.Failed;
    StatusesWritten(v, taskId, source, target, env);
    assert [Pending] + WrittenStatuses(Events(v, taskId, source, target, env)) == [Pending, Processing, terminal];
    TerminalHistoryAdvances(terminal);
  }

  /** PROCESSING, then a part writing only `terminal`, then a part writing nothing. */
  lemma HistoryOf(taskId: string, attempt: seq<Event>, cleanup: seq<Event>, terminal: Status)
    requires WrittenStatuses(attempt) == [terminal]
    requires forall j :: 0 <= j < |cleanup| ==> StatusWritten(cleanup[j]).None?
    ensures WrittenStatuses([MarkedProcessing(taskId)] + attempt + cleanup) == [Processing, terminal]
  {
    var front := [MarkedProcessing(taskId)];
    var tried := front + attempt;
    OneMark(MarkedProcessing(taskId));
    WrittenStatusesAppend(front, attempt);
    assert WrittenStatuses(tried) == [Processing, terminal];
    AllUnmarked(cleanup);
    WrittenStatusesAppend(tried, cleanup);
  }

  /** Each status in `ss` comes later in the enum's order than every status before it. */
  predicate Advances(ss: seq<Status>) {
    forall i, j :: 0 <= i < j < |ss| ==> Ordinal(ss[i]) < Ordinal(ss[j])
  }

  lemma TerminalHistoryAdvances(terminal: Status)
    requires terminal == Completed || terminal == Status.Failed
    ensures Advances([Pending, Processing, terminal])
  {
  }

  /** A single event writes at most its own status. */
  lemma OneMark(e: Event)
    ensures WrittenStatuses([e]) == if StatusWritten(e).Some? then [StatusWritten(e).value] else []
  {
    assert [e][..0] == [];
  }

  /** The `try`/`catch` part writes the terminal status and nothing else. */
  lemma AttemptWritesTerminal(taskId: string, source: string, target: string, format: string, env: Environment)
    ensures WrittenStatuses(AttemptEvents(taskId, source, target, format, env))
      == [if Succeeds(env) then Completed else Status.Failed]
  {
    var es := AttemptEvents(taskId, source, target, format, env);
    OnlyLastMarks(es, if Succeeds(env) then Completed else Status.Failed);
  }

  /** A sequence whose only status-writing event is its last writes exactly that status. */
  lemma OnlyLastMarks(es: seq<Event>, s: Status)
    requires |es| > 0 && StatusWritten(es[|es| - 1]) == Some(s)
    requires forall j :: 0 <= j < |es| - 1 ==> StatusWritten(es[j]).None?
    ensures WrittenStatuses(es) == [s]
  {
    var front := es[..|es| - 1];
    forall j | 0 <= j < |front| ensures StatusWritten(front[j]).None? {
      assert front[j] == es[j];
    }
    AllUnmarked(front);
  }

  /** Events that write no status contribute nothing to the history. */
  lemma {:induction false} AllUnmarked(es: seq<Event>)
    requires forall j :: 0 <= j < |es| ==> StatusWritten(es[j]).None?
    ensures WrittenStatuses(es) == []
    decreases |es|
  {
    if |es| > 0 {
      AllUnmarked(es[..|es| - 1]);
    }
  }
}

=== FILE: pdf_text.dfy ===
/**
 * `isPdfWithText`: a bounded scan of a PDF's raw bytes for text-layer markers.
 *
 * The file is read as a 5-byte header followed by 4096-byte chunks. Each chunk is
 * searched on its own, so a marker split across two chunks is not seen. The scan
 * stops after the chunk that takes the running total past 5 MiB. The bytes are
 * decoded with the platform charset before searching; the markers are ASCII, and the
 * model searches the bytes directly, which agrees for ASCII-compatible charsets.
 */
module PdfText {
  import opened Common
  import opened Text
  import opened FileType

  /** `raf.read(new byte[5])` consumes the header before the scan starts. */
  const HeaderLength: nat := 5
  const ChunkSize: nat := 4096
  /** The loop breaks once more than 5 MiB of chunks have been read. */
  const ScanLimit: nat := 5 * 1024 * 1024

  const MarkerBT: seq<byte> := [0x42, 0x54]                  // "BT", begin text object
  const MarkerET: seq<byte> := [0x45, 0x54]                  // "ET", end text object
  const MarkerFont: seq<byte> := [0x2F, 0x46, 0x6F, 0x6E, 0x74]  // "/Font"
  const MarkerTj: seq<byte> := [0x54, 0x6A]                  // "Tj", show text
  const MarkerTJ: seq<byte> := [0x54, 0x4A]                  // "TJ", show text with spacing

  /** One chunk counts as text when it holds BT and ET, or /Font, or Tj, or TJ. */
  predicate ChunkShowsText(c: seq<byte>) {
    || (Contains(c, MarkerBT) && Contains(c, MarkerET))
    || Contains(c, MarkerFont)
    || Contains(c, MarkerTj)
    || Contains(c, MarkerTJ)
  }

  /** The header string starts with "%PDF"; bytes a short file does not supply stay zero. */
  predicate HasPdfHeader(data: seq<byte>) {
    |data| >= 4 && data[..4] == PdfMagic
  }

  /** The bytes left after the header read. */
  function Body(data: seq<byte>): seq<byte> {
    data[Min(HeaderLength, |data|)..]
  }

  /** Chunk `k` is read when it starts before the end and the chunks before it total at most 5 MiB. */
  predicate ChunkIsScanned(body: seq<byte>, k: nat) {
    k * ChunkSize < |body| && k * ChunkSize <= ScanLimit
  }

  /** The `k`-th buffer filled by `raf.read(buffer)`. */
  function Chunk(body: seq<byte>, k: nat): seq<byte>
    requires k * ChunkSize < |body|
  {
    body[k * ChunkSize..Min((k + 1) * ChunkSize, |body|)]
  }

  /** The reference reading: some chunk the scan reaches shows text. */
  predicate ScanFindsText(body: seq<byte>) {
    exists k: nat :: k < |body| && ChunkIsScanned(body, k) && ChunkShowsText(Chunk(body, k))
  }

  /**
   * `isPdfWithText`. `None` stands for a file that could not be read: the exception is
   * caught and the answer is "has text".
   */
  function IsPdfWithText(file: Option<seq<byte>>): bool {
    match file
    case None => true
    case Some(data) => HasPdfHeader(data) && ScanFindsText(Body(data))
  }

  /**
   * The loop of `isPdfWithText`, chunk by chunk: it stops at end of file, at the first
   * chunk that shows text, or once more than 5 MiB have been read.
   */
  method ScanPdfForText(file: Option<seq<byte>>) returns (hasText: bool)
    ensures hasText == IsPdfWithText(file)
    ensures file.Some? && !HasPdfHeader(file.value) ==> !hasText
    ensures file.None? ==> hasText
  {
    if file.None? {
      return true;
    }
    var data := file.value;
    if !HasPdfHeader(data) {
      return false;
    }
    var body := Body(data);
    var bytesRead: nat := 0;
    ghost var k: nat := 0;
    ghost var offset: nat := 0;
    while bytesRead < |data|
      invariant offset == k * ChunkSize
      invariant bytesRead == Min(offset, |body|) && bytesRead <= ScanLimit
      invariant forall j: nat :: j < k ==> Passed(body, j)
      decreases |data| - bytesRead
    {
      if bytesRead >= |body| {
        break;
      }
      var read := Min(ChunkSize, |body| - bytesRead);
      var chunk := body[bytesRead..bytesRead + read];
      NextChunk(body, k, offset);
      if ChunkShowsText(chunk) {
        assert ChunkIsScanned(body, k);
        return true;
      }
      bytesRead := bytesRead + read;
      k := k + 1;
      offset := offset + ChunkSize;
      if bytesRead > ScanLimit {
        break;
      }
    }
    NoScannedChunkBeyond(body, k);
    return false;
  }

  /** Chunk `j` was read and shows no text. */
  predicate Passed(body: seq<byte>, j: nat) {
    j * ChunkSize < |body| && !ChunkShowsText(Chunk(body, j))
  }

  /** The read at offset `k * ChunkSize` fills chunk `k` and advances the offset to the next chunk's start. */
  lemma NextChunk(body: seq<byte>, k: nat, offset: nat)
    requires offset == k * ChunkSize && offset < |body|
    ensures offset + Min(ChunkSize, |body| - offset) == Min(offset + ChunkSize, |body|)
    ensures offset + ChunkSize == (k + 1) * ChunkSize
    ensures body[offset..offset + Min(ChunkSize, |body| - offset)] == Chunk(body, k)
  {
    assert (k + 1) * ChunkSize == offset + ChunkSize;
  }

  /** Every chunk the scan reaches lies before chunk `k` once the loop has stopped there. */
  lemma NoScannedChunkBeyond(body: seq<byte>, k: nat)
    requires k * ChunkSize >= |body| || k * ChunkSize > ScanLimit
    requires forall j: nat :: j < k ==> Passed(body, j)
    ensures !ScanFindsText(body)
  {
    forall j: nat | j < |body| && ChunkIsScanned(body, j) ensures !ChunkShowsText(Chunk(body, j)) {
      assert j < k;
      assert Passed(body, j);
    }
  }

  /** A chunk in which no position that could start `m` holds `m`'s first byte does not contain `m`. */
  lemma AbsentLeadByte(c: seq<byte>, m: seq<byte>)
    requires |m| > 0
    requires forall i :: 0 <= i <= |c| - |m| ==> c[i] != m[0]
    ensures !Contains(c, m)
  {
    forall i | 0 <= i <= |c| - |m| ensures !OccursAt(c, m, i) {
      assert c[i..i + |m|][0] == c[i];
    }
  }

  /** A chunk of spaces ending in one 'T' shows no text. */
  lemma SpacesThenTShowNoText(c: seq<byte>)
    requires |c| > 0 && c[|c| - 1] == 0x54
    requires forall i :: 0 <= i < |c| - 1 ==> c[i] == 0x20
    ensures !ChunkShowsText(c)
  {
    AbsentLeadByte(c, MarkerBT);
    AbsentLeadByte(c, MarkerFont);
    AbsentLeadByte(c, MarkerTj);
    AbsentLeadByte(c, MarkerTJ);
  }

  /** "%PDF-", 4095 spaces, then "Tj" placed so that 'T' ends the first chunk and 'j' starts the second. */
  function StraddleExample(): seq<byte> {
    [0x25, 0x50, 0x44, 0x46, 0x2D] + seq(ChunkSize - 1, _ => 0x20) + MarkerTj
  }

  /** A show-text operator cut by a chunk boundary is missed: the file holds "Tj" yet the answer is "no text". */
  lemma StraddlingMarkerIsMissed()
    ensures Contains(StraddleExample(), MarkerTj)
    ensures !IsPdfWithText(Some(StraddleExample()))
  {
    var d := StraddleExample();
    var spaces: seq<byte> := seq(ChunkSize - 1, _ => 0x20);
    assert d[..4] == PdfMagic;
    assert d[4 + ChunkSize..4 + ChunkSize + 2] == MarkerTj;
    assert OccursAt(d, MarkerTj, 4 + ChunkSize);
    var body := Body(d);
    assert body == spaces + MarkerTj;
    var c0 := Chunk(body, 0);
    assert c0 == spaces + [0x54];
    SpacesThenTShowNoText(c0);
    var c1 := Chunk(body, 1);
    assert c1 == [0x6A];
    AbsentLeadByte(c1, MarkerFont);
    forall k: nat | k < |body| && ChunkIsScanned(body, k) ensures !ChunkShowsText(Chunk(body, k)) {
      assert k == 0 || k == 1;
    }
  }

  /** The bytes the scan can reach: the header and 1281 chunks. */
  const ScanWindow: nat := HeaderLength + (ScanLimit / ChunkSize + 1) * ChunkSize

  /**
   * The scan is bounded: bytes past the header and the first 1281 chunks never
   * change the answer, and no chunk after the 1281st is read.
   */
  lemma ScanIsBounded(data: seq<byte>, k: nat)
    ensures ChunkIsScanned(Body(data), k) ==> k <= 1280
    ensures IsPdfWithText(Some(data)) == IsPdfWithText(Some(data[..Min(|data|, ScanWindow)]))
  {
    if |data| > ScanWindow {
      var cut := data[..ScanWindow];
      assert cut[..4] == data[..4];
      assert Body(cut) == Body(data)[..ScanWindow - HeaderLength];
      PrefixKeepsScan(Body(data), ScanWindow - HeaderLength);
    } else {
      assert data[..Min(|data|, ScanWindow)] == data;
    }
  }

  /** Cutting the body after 1281 chunks keeps every scanned chunk, so the verdict is the same. */
  lemma PrefixKeepsScan(body: seq<byte>, n: nat)
    requires n == (ScanLimit / ChunkSize + 1) * ChunkSize && n <= |body|
    ensures ScanFindsText(body[..n]) == ScanFindsText(body)
  {
    var cut := body[..n];
    forall j: nat | j * ChunkSize <= ScanLimit
      ensures j * ChunkSize < |cut| && Chunk(cut, j) == Chunk(body, j)
    {
      assert (j + 1) * ChunkSize <= n;
    }
    if ScanFindsText(body) {
      var j: nat :| j < |body| && ChunkIsScanned(body, j) && ChunkShowsText(Chunk(body, j));
      assert ChunkIsScanned(cut, j);
    }
    if ScanFindsText(cut) {
      var j: nat :| j < |cut| && ChunkIsScanned(cut, j) && ChunkShowsText(Chunk(cut, j));
      assert ChunkIsScanned(body, j);
    }
  }
}

=== FILE: result.dfy ===
/** The response envelope `Result<T>` and its static factories. */
module Results {
  import opened Common

  const SuccessCode: int := 200
  const DefaultErrorCode: int := 400
  const SuccessMessage: string := "操作成功"

  /** `timestamp` is the abstract reading of `System.currentTimeMillis()` taken by the factory. */
  datatype Result<T> = Result(code: int, msg: Option<string>, data: Option<T>, timestamp: Tick) {

    /** `isSuccess()`. */
    predicate IsSuccess() {
      code == SuccessCode
    }
  }

  /** `success(data)`. */
  function Success<T>(data: Option<T>, now: Tick): (r: Result<T>)
    ensures r.IsSuccess()
    ensures r.msg == Some(SuccessMessage) && r.data == data && r.timestamp == now
  {
    Result(SuccessCode, Some(SuccessMessage), data, now)
  }

  /** `success()`: delegates to `success(null)`. */
  function SuccessEmpty<T>(now: Tick): (r: Result<T>)
    ensures r == Success(None, now)
  {
    Success(None, now)
  }

  /** `error(code, msg)`: the data stays null. */
  function Error<T>(code: int, msg: Option<string>, now: Tick): (r: Result<T>)
    ensures r.code == code && r.msg == msg && r.data.None? && r.timestamp == now
  {
    Result(code, msg, None, now)
  }

  /** `error(code)`: both the message and the data stay null. */
  function ErrorCode<T>(code: int, now: Tick): (r: Result<T>)
    ensures r.code == code && r.msg.None? && r.data.None? && r.timestamp == now
  {
    Result(code, None, None, now)
  }

  /** `error(msg)`: delegates to `error(400, msg)`. */
  function ErrorMessage<T>(msg: Option<string>, now: Tick): (r: Result<T>)
    ensures r == Error(DefaultErrorCode, msg, now)
    ensures !r.IsSuccess()
  {
    Error(DefaultErrorCode, msg, now)
  }

  /**
   * The error factories yield a successful result exactly when the caller passes code 200:
   * `isSuccess` looks at the code alone, never at the message or the data.
   */
  lemma ErrorSucceedsOnlyWithCode200<T>(code: int, msg: Option<string>, now: Tick)
    ensures Error<T>(code, msg, now).IsSuccess() <==> code == 200
    ensures ErrorCode<T>(code, now).IsSuccess() <==> code == 200
    ensures Error<T>(200, msg, now).IsSuccess()
  {
  }
}

=== FILE: submission.dfy ===
/**
 * `change` (Word to PDF) and `pdfToWordFormat` (PDF to DOCX or DOC): validate the upload,
 * stage it under `taskId + "_" + originalFilename`, create the task, run the background
 * job and answer with the task id.
 *
 * The job is called through `this`, so Spring's proxy is bypassed and the job runs to
 * completion before the response is built; the model therefore composes submission and
 * job into one function. The UUID, the file system, the converter process, the object
 * store and the clock are fields of a `World` the caller supplies.
 */
module Submission {
  import opened Common
  import opened Text
  import opened TaskStatus
  import opened Results
  import opened TaskRegistry
  import opened FileType
  import ConvertOutput
  import opened Orchestrator

  const EmptyFileMessage: string := "上传文件不能为空"
  const InvalidNameMessage: string := "无效的文件名"
  const UnsupportedWordMessage: string := "只支持.doc和.docx格式的Word文件"
  const UnsupportedPdfMessage: string := "只支持.pdf格式的文件"
  const UploadFailedPrefix: string := "文件上传失败: "
  const SubmittedPrefix: string := "任务已提交，任务ID: "

  /** The part of a multipart upload the endpoints read; a null name or content type is `None`. */
  datatype Upload = Upload(content: seq<byte>, originalFilename: Option<string>, contentType: Option<string>)

  /** The instants at which the clock is read. */
  datatype Clock = Clock(created: Tick, createdUpdate: Tick, processing: Tick, finished: Tick, responded: Tick)

  /**
   * How the platform's file system answers `uploadPath.resolve(name)`: it accepts the name,
   * or throws `InvalidPathException` with a reason and an index (-1 when there is none).
   */
  datatype PathCheck = Accepts | Rejects(reason: string, index: int)

  /** `InvalidPathException.getMessage()`: the reason, " at index i" when known, then ": " and the input. */
  function InvalidPathMessage(reason: string, index: int, input: string): (m: string)
    ensures StartsWith(m, reason) && EndsWith(m, ": " + input)
    ensures index <= -1 ==> |m| == |reason| + 2 + |input|
    ensures index > -1 ==> m[|reason|..] == " at index " + IntToString(index) + ": " + input
  {
    reason + (if index > -1 then " at index " + IntToString(index) else "") + ": " + input
  }

  /**
   * The check `UnixPath` makes while normalising a path string: a NUL character anywhere is
   * rejected, without an index; nothing else is.
   */
  function UnixPathCheck(input: string): (c: PathCheck)
    ensures c.Rejects? <==> exists i :: 0 <= i < |input| && input[i] == '\0'
    ensures c.Rejects? ==> c == Rejects(NulNotAllowed, -1)
  {
    if '\0' in input then Rejects(NulNotAllowed, -1) else Accepts
  }

  /** The reason `UnixPath` gives for a NUL character. */
  const NulNotAllowed: string := "Nul character not allowed"

  /**
   * Everything a submission depends on besides its upload: the UUID drawn, how creating the
   * directory, resolving the staged path and saving the upload end, the converter run, the
   * upload and cleanup outcomes, where the output is expected, the clock, and the JDK whose
   * exception texts surface in responses and task records.
   */
  datatype World = World(
    taskId: string, makeDirs: Step, resolve: PathCheck, transfer: Step, process: ConvertOutput.ProcessRun,
    outputDir: string, separator: string, upload: Step, sink: Sink, sourceDelete: Step, clock: Clock,
    jdk: Jdk)

  /**
   * An endpoint answers with a `Result`, or an unchecked exception escapes it (the
   * `catch` only covers `IOException`; `StringIndexOutOfBoundsException` and
   * `InvalidPathException` are not among them) and no task is created.
   */
  datatype Outcome =
    | Responded(response: Result<string>, registry: Registry, events: seq<Event>)
    | Crashed(message: string)

  /** The extension the target name receives: ".pdf", ".docx" or ".doc". */
  function TargetExtension(v: Variant): string {
    "." + TargetFormat(v)
  }

  /**
   * The type check each endpoint applies: the Word endpoint recognises doc and docx, the
   * PDF endpoints recognise pdf, by extension, declared content type or signature.
   */
  function Sniff(v: Variant, extension: string, contentType: Option<string>, content: seq<byte>): (t: Option<string>)
    ensures v.WordToPdf? ==> (t.Some? ==> t.value == "doc" || t.value == "docx")
    ensures !v.WordToPdf? ==> (t.Some? ==> t.value == "pdf")
    ensures v.WordToPdf? ==> (t.None? <==>
      && extension != "doc" && extension != "docx"
      && contentType != Some(MsWordType) && contentType != Some(OoxmlWordType)
      && !HeaderIs(content, DocMagic) && !HeaderIs(content, ZipMagic))
    ensures !v.WordToPdf? ==> (t.None? <==>
      extension != "pdf" && contentType != Some(PdfType) && !HeaderIs(content, PdfMagic))
  {
    if v.WordToPdf? then DetermineActualFileType(extension, contentType, content)
    else DeterminePdfFileType(extension, contentType, content)
  }

  function UnsupportedMessage(v: Variant): string {
    if v.WordToPdf? then UnsupportedWordMessage else UnsupportedPdfMessage
  }

  /** `"文件上传失败: " + e.getMessage()`: string concatenation renders a null message as "null". */
  function UploadFailedMessage(m: Option<string>): (s: string)
    ensures StartsWith(s, UploadFailedPrefix)
    ensures m.Some? ==> s[|UploadFailedPrefix|..] == m.value
  {
    UploadFailedPrefix + m.GetOr("null")
  }

  /** Whether the upload passes the three checks made before anything is written. */
  predicate Admissible(v: Variant, u: Upload) {
    && |u.content| > 0
    && u.originalFilename.Some?
    && Sniff(v, GetFileExtension(u.originalFilename.value), u.contentType, u.content).Some?
  }

  /** One call of `change` (for `WordToPdf`) or `pdfToWordFormat` (for the PDF variants). */
  function Submit(v: Variant, reg: Registry, u: Upload, w: World): (o: Outcome)
    ensures o.Responded? ==> o.response.code == SuccessCode || o.response.code == DefaultErrorCode
    ensures o.Responded? && !o.response.IsSuccess() ==> o.registry == reg && o.events == []
    ensures o.Responded? && o.response.IsSuccess() ==>
      && Admissible(v, u)
      && w.taskId in o.registry && OthersUnchanged(reg, o.registry, w.taskId)
      && o.response.data == Some(SubmittedPrefix + w.taskId)
    ensures !Admissible(v, u) ==> o.Responded? && !o.response.IsSuccess()
    ensures o.Crashed? ==>
      && u.originalFilename.Some? && w.makeDirs.Done?
      && ('.' !in StagedName(w.taskId, u.originalFilename.value) || w.resolve.Rejects?)
    ensures o.Crashed? && w.resolve.Rejects? && '.' in StagedName(w.taskId, u.originalFilename.value) ==>
      o.message == InvalidPathMessage(w.resolve.reason, w.resolve.index, StagedName(w.taskId, u.originalFilename.value))
  {
    var now := w.clock.responded;
    if |u.content| == 0 then Responded(ErrorMessage(Some(EmptyFileMessage), now), reg, [])
    else if u.originalFilename.None? then Responded(ErrorMessage(Some(InvalidNameMessage), now), reg, [])
    else
      var name := u.originalFilename.value;
      var sniffed := Sniff(v, GetFileExtension(name), u.contentType, u.content);
      if sniffed.None? then Responded(ErrorMessage(Some(UnsupportedMessage(v)), now), reg, [])
      else if w.makeDirs.Threw? then Responded(ErrorMessage(Some(UploadFailedMessage(w.makeDirs.message)), now), reg, [])
      else
        var source := StagedName(w.taskId, name);
        var target := TargetName(source, TargetExtension(v));
        if target.None? then Crashed(SubstringRangeMessage(w.jdk, 0, -1, JavaLength(source)))
        else Save(v, reg, name, w, source, target.value)
  }

  /**
   * From `uploadPath.resolve` on: a rejected path throws past the `catch`, a failed
   * `transferTo` is answered with the upload-failed error, and otherwise the task is created,
   * the job runs and the answer carries the id.
   */
  function Save(v: Variant, reg: Registry, name: string, w: World, source: string, target: string): (o: Outcome)
    ensures o.Crashed? <==> w.resolve.Rejects?
    ensures o.Crashed? ==> o.message == InvalidPathMessage(w.resolve.reason, w.resolve.index, source)
    ensures o.Responded? && !o.response.IsSuccess() ==> o.registry == reg && o.events == []
    ensures o.Responded? ==> o.response.code == SuccessCode || o.response.code == DefaultErrorCode
    ensures o.Responded? && o.response.IsSuccess() ==>
      && w.taskId in o.registry && OthersUnchanged(reg, o.registry, w.taskId)
      && o.response.data == Some(SubmittedPrefix + w.taskId)
  {
    var now := w.clock.responded;
    if w.resolve.Rejects? then Crashed(InvalidPathMessage(w.resolve.reason, w.resolve.index, source))
    else if w.transfer.Threw? then Responded(ErrorMessage(Some(UploadFailedMessage(w.transfer.message)), now), reg, [])
    else
      var job := Job(v, reg, name, w, source, target);
      Responded(Success(Some(SubmittedPrefix + w.taskId), now), job.registry, job.events)
  }

  /** `createTask` followed by the background job, on the path where the upload was saved. */
  function Job(v: Variant, reg: Registry, name: string, w: World, source: string, target: string): (r: Run)
    ensures w.taskId in r.registry && OthersUnchanged(reg, r.registry, w.taskId)
  {
    var created := CreateTask(reg, w.taskId, name, w.clock.created, w.clock.createdUpdate).0;
    var outputPath := w.outputDir + w.separator + target;
    var conversion := ConvertOutput.FinishConversion(w.process, source, TargetFormat(v), outputPath);
    var env := Environment(ConversionStep(conversion, w.jdk), w.upload, w.sink, w.sourceDelete,
                           w.clock.processing, w.clock.finished);
    Orchestrate(v, created, w.taskId, source, target, env)
  }

  /**
   * On the accepted path the answer is the success result, and the registry and requests
   * are those of the job run on `id_stem.e` with target `id_stem` plus the new extension.
   */
  lemma AcceptedPath(v: Variant, reg: Registry, u: Upload, w: World, stem: string, e: string)
    requires u.originalFilename == Some(stem + "." + e) && '.' !in e
    requires |u.content| > 0 && Sniff(v, ToLower(e), u.contentType, u.content).Some?
    requires IsUuid(w.taskId) && w.makeDirs.Done? && w.resolve.Accepts? && w.transfer.Done?
    ensures var job := Job(v, reg, stem + "." + e, w, w.taskId + "_" + stem + "." + e, w.taskId + "_" + stem + TargetExtension(v));
      Submit(v, reg, u, w) == Responded(Success(Some(SubmittedPrefix + w.taskId), w.clock.responded), job.registry, job.events)
  {
    AdmissibleDotted(v, u, stem, e);
    NamesOfDottedUpload(v, w.taskId, stem, e);
  }

  /**
   * For a name `stem.e` the extension checked is `e` lower-cased, so admissibility can be
   * stated on `e` itself.
   */
  lemma AdmissibleDotted(v: Variant, u: Upload, stem: string, e: string)
    requires u.originalFilename == Some(stem + "." + e) && '.' !in e
    ensures Admissible(v, u) <==> |u.content| > 0 && Sniff(v, ToLower(e), u.contentType, u.content).Some?
  {
    ExtensionOfDottedName(stem, e);
  }

  /** The staged name of `stem.e` and its target name under a UUID task id. */
  lemma NamesOfDottedUpload(v: Variant, taskId: string, stem: string, e: string)
    requires IsUuid(taskId) && '.' !in e
    ensures StagedName(taskId, stem + "." + e) == taskId + "_" + stem + "." + e
    ensures TargetName(StagedName(taskId, stem + "." + e), TargetExtension(v)) == Some(taskId + "_" + stem + TargetExtension(v))
  {
    UuidHasNoDot(taskId);
    assert StagedName(taskId, stem + "." + e) == (taskId + "_" + stem) + "." + e;
    TargetNameOfJoin(taskId + "_" + stem, e, TargetExtension(v));
  }

  /**
   * An empty file, a missing name or an unrecognised type is answered with code 400 and
   * the matching message, before any directory, file or task is created.
   */
  lemma RejectionsCreateNoTask(v: Variant, reg: Registry, u: Upload, w: World)
    requires !Admissible(v, u)
    ensures var o := Submit(v, reg, u, w);
      && o.Responded? && o.response.code == DefaultErrorCode && o.response.data.None?
      && o.registry == reg && o.events == []
      && (|u.content| == 0 ==> o.response.msg == Some(EmptyFileMessage))
      && (|u.content| > 0 && u.originalFilename.None? ==> o.response.msg == Some(InvalidNameMessage))
      && (|u.content| > 0 && u.originalFilename.Some? ==> o.response.msg == Some(UnsupportedMessage(v)))
  {
  }

  /**
   * Saving the upload precedes `createTask`: when creating the directory or saving the file
   * fails, the answer is the upload-failed error and no task exists.
   */
  lemma StagingFailureCreatesNoTask(v: Variant, reg: Registry, u: Upload, w: World, stem: string, e: string)
    requires u.originalFilename == Some(stem + "." + e) && '.' !in e
    requires |u.content| > 0 && Sniff(v, ToLower(e), u.contentType, u.content).Some?
    requires IsUuid(w.taskId) && (w.makeDirs.Threw? || (w.resolve.Accepts? && w.transfer.Threw?))
    ensures var o := Submit(v, reg, u, w);
      && o.Responded? && o.response.code == DefaultErrorCode
      && o.response.msg == Some(UploadFailedMessage(if w.makeDirs.Threw? then w.makeDirs.message else w.transfer.message))
      && o.registry == reg && o.events == []
  {
    AdmissibleDotted(v, u, stem, e);
    NamesOfDottedUpload(v, w.taskId, stem, e);
  }

  /**
   * With a UUID task id, `substring(0, lastIndexOf('.'))` throws exactly when the original
   * name has no '.'; otherwise the endpoint can still throw from `resolve`. Either exception
   * escapes the endpoint and no task is created.
   */
  lemma NameWithoutDotCrashes(v: Variant, reg: Registry, u: Upload, w: World)
    requires Admissible(v, u) && IsUuid(w.taskId) && w.makeDirs.Done?
    ensures var name := u.originalFilename.value;
      Submit(v, reg, u, w).Crashed? <==> '.' !in name || w.resolve.Rejects?
    ensures '.' !in u.originalFilename.value ==>
      Submit(v, reg, u, w) == Crashed(SubstringRangeMessage(w.jdk, 0, -1, JavaLength(StagedName(w.taskId, u.originalFilename.value))))
    ensures '.' !in u.originalFilename.value && w.jdk.Jdk8? ==>
      Submit(v, reg, u, w) == Crashed("String index out of range: -1")
    ensures '.' !in u.originalFilename.value && w.jdk.Jdk21? ==>
      Submit(v, reg, u, w) ==
        Crashed("Range [0, -1" + RangeOutOfBounds + IntToString(JavaLength(StagedName(w.taskId, u.originalFilename.value))))
  {
    UuidHasNoDot(w.taskId);
    NegativeEndMessage(JavaLength(StagedName(w.taskId, u.originalFilename.value)));
    NegativeEndRangeMessage(JavaLength(StagedName(w.taskId, u.originalFilename.value)));
    TargetNameOfStaged(w.taskId, u.originalFilename.value, TargetExtension(v));
  }

  /**
   * On a Unix file system, a name `stem.e` holding a NUL character passes the checks and the
   * `substring`, and then `resolve` throws: the exception escapes the endpoint.
   */
  lemma NulNameCrashesOnUnix(v: Variant, reg: Registry, u: Upload, w: World, stem: string, e: string)
    requires u.originalFilename == Some(stem + "." + e) && '.' !in e
    requires |u.content| > 0 && Sniff(v, ToLower(e), u.contentType, u.content).Some?
    requires IsUuid(w.taskId) && w.makeDirs.Done?
    requires w.resolve == UnixPathCheck(w.taskId + "_" + stem + "." + e)
    requires '\0' in stem
    ensures Submit(v, reg, u, w) == Crashed(NulNotAllowed + ": " + (w.taskId + "_" + stem + "." + e))
  {
    var source := w.taskId + "_" + stem + "." + e;
    var i :| 0 <= i < |stem| && stem[i] == '\0';
    NulRejected(source, |w.taskId| + 1 + i);
    assert Submit(v, reg, u, w) == Save(v, reg, stem + "." + e, w, source, w.taskId + "_" + stem + TargetExtension(v)) by {
      AdmissibleDotted(v, u, stem, e);
      NamesOfDottedUpload(v, w.taskId, stem, e);
    }
  }

  /** A path string with a NUL at index `i` is rejected on Unix, with the reason and the string as its message. */
  lemma NulRejected(input: string, i: int)
    requires 0 <= i < |input| && input[i] == '\0'
    ensures UnixPathCheck(input) == Rejects(NulNotAllowed, -1)
    ensures InvalidPathMessage(NulNotAllowed, -1, input) == NulNotAllowed + ": " + input
  {
    assert NulNotAllowed + "" == NulNotAllowed;
  }

  /**
   * An accepted submission: the task is created under the drawn id, the job marks it
   * PROCESSING and converts the staged file into `stem` plus the target extension, the
   * task ends COMPLETED or FAILED, and the answer carries the id.
   */
  lemma AcceptedSubmission(v: Variant, reg: Registry, u: Upload, w: World, stem: string, e: string)
    requires u.originalFilename == Some(stem + "." + e) && '.' !in e
    requires |u.content| > 0 && Sniff(v, ToLower(e), u.contentType, u.content).Some?
    requires IsUuid(w.taskId) && w.makeDirs.Done? && w.resolve.Accepts? && w.transfer.Done?
    ensures var o := Submit(v, reg, u, w);
      var source := w.taskId + "_" + stem + "." + e;
      var target := w.taskId + "_" + stem + TargetExtension(v);
      && o.Responded? && o.response.IsSuccess() && o.response.data == Some(SubmittedPrefix + w.taskId)
      && w.taskId in o.registry
      && o.registry[w.taskId].taskId == Some(w.taskId)
      && o.registry[w.taskId].originalFilename == u.originalFilename
      && (o.registry[w.taskId].status == Some(Completed) || o.registry[w.taskId].status == Some(Status.Failed))
      && o.events[0] == MarkedProcessing(w.taskId)
      && o.events[1] == ConvertRequested(source, target, TargetFormat(v))
      && OthersUnchanged(reg, o.registry, w.taskId)
  {
    var name := stem + "." + e;
    var source := w.taskId + "_" + stem + "." + e;
    var target := w.taskId + "_" + stem + TargetExtension(v);
    AcceptedPath(v, reg, u, w, stem, e);
    var created := CreateTask(reg, w.taskId, name, w.clock.created, w.clock.createdUpdate).0;
    var outputPath := w.outputDir + w.separator + target;
    var conversion := ConvertOutput.FinishConversion(w.process, source, TargetFormat(v), outputPath);
    var env := Environment(ConversionStep(conversion, w.jdk), w.upload, w.sink, w.sourceDelete,
                           w.clock.processing, w.clock.finished);
    FinalTask(v, created, w.taskId, source, target, env);
    assert Job(v, reg, name, w, source, target) == Orchestrate(v, created, w.taskId, source, target, env);
  }

  /**
   * A converter that exits with 0 and writes nothing still completes the task: the output
   * search falls back to the prefix rule, the staged source itself matches it, and the
   * source is moved onto the output name and uploaded as the result.
   */
  lemma SilentConverterCompletes(v: Variant, reg: Registry, u: Upload, w: World, stem: string, e: string, out: string)
    requires u.originalFilename == Some(stem + "." + e) && '.' !in e && |e| > 0
    requires |u.content| > 0 && Sniff(v, ToLower(e), u.contentType, u.content).Some?
    requires IsUuid(w.taskId) && w.makeDirs.Done? && w.resolve.Accepts? && w.transfer.Done? && w.upload.Done?
    requires w.process == ConvertOutput.Exited(0, out, false, [w.taskId + "_" + stem + "." + e])
    ensures var o := Submit(v, reg, u, w);
      var target := w.taskId + "_" + stem + TargetExtension(v);
      && o.Responded? && w.taskId in o.registry
      && o.registry[w.taskId].status == Some(Completed)
      && o.registry[w.taskId].fileUrl == Some(ObjectUrl(w.sink, target))
  {
    var name := stem + "." + e;
    var source := w.taskId + "_" + stem + "." + e;
    var target := w.taskId + "_" + stem + TargetExtension(v);
    AcceptedPath(v, reg, u, w, stem, e);
    var outputPath := w.outputDir + w.separator + target;
    TargetFormatIsShort(v);
    assert JavaLength(w.taskId + "_" + stem) >= |w.taskId + "_" + stem| >= 9;
    ConvertOutput.ZeroExitWithoutOutputRenamesSource(w.taskId + "_" + stem, e, TargetFormat(v), out, outputPath);
    var created := CreateTask(reg, w.taskId, name, w.clock.created, w.clock.createdUpdate).0;
    var env := Environment(Done, w.upload, w.sink, w.sourceDelete, w.clock.processing, w.clock.finished);
    FinalTask(v, created, w.taskId, source, target, env);
    assert Job(v, reg, name, w, source, target) == Orchestrate(v, created, w.taskId, source, target, env);
  }

  /**
   * The PDF endpoints trust the extension: any non-empty upload named "invalid.pdf" is
   * accepted and a task is created, whatever its bytes are.
   */
  lemma PdfExtensionAloneIsAccepted(v: Variant, reg: Registry, content: seq<byte>, contentType: Option<string>, w: World)
    requires !v.WordToPdf? && |content| > 0 && IsUuid(w.taskId)
    requires w.makeDirs.Done? && w.resolve.Accepts? && w.transfer.Done?
    ensures var o := Submit(v, reg, Upload(content, Some("invalid.pdf"), contentType), w);
      o.Responded? && o.response.code == SuccessCode && w.taskId in o.registry
  {
    assert "invalid.pdf" == "invalid" + "." + "pdf";
    ExtensionOfDottedName("invalid", "pdf");
    TargetFormatsAreLowerCase("pdf");
    AcceptedSubmission(v, reg, Upload(content, Some("invalid.pdf"), contentType), w, "invalid", "pdf");
  }
}

=== FILE: task_registry.dfy ===
/**
 * `TaskServiceImpl`: the in-memory map from task id to task record. Its
 * `ConcurrentHashMap` becomes a value of type `Registry`; each operation returns the
 * new map. Records are shared by reference in Java, so updating the stored record
 * is the same as replacing the map entry.
 */
module TaskRegistry {
  import opened Common
  import opened TaskStatus
  import opened ConvertTask

  type Registry = map<string, Task>

  /** Every entry other than `id` is the same in `r2` as in `r1`, and no key appears or vanishes. */
  predicate OthersUnchanged(r1: Registry, r2: Registry, id: string) {
    && r2.Keys == r1.Keys + (if id in r2 then {id} else {})
    && forall k :: k in r1 && k != id ==> k in r2 && r2[k] == r1[k]
  }

  /**
   * `createTask`: stores a fresh PENDING record under `id`, replacing any record that
   * already had that id, and returns the record.
   */
  function CreateTask(reg: Registry, id: string, name: string, created: Tick, updated: Tick)
    : (res: (Registry, Task))
    ensures res.0.Keys == reg.Keys + {id}
    ensures id in res.0 && res.0[id] == res.1
    ensures res.1.taskId == Some(id) && res.1.originalFilename == Some(name)
    ensures res.1.status == Some(Pending) && res.1.fileUrl.None? && res.1.errorMessage.None?
    ensures OthersUnchanged(reg, res.0, id)
  {
    var task := New(id, name, created, updated);
    (reg[id := task], task)
  }

  /** `getTask`: the stored record, or null for an id never created. */
  function GetTask(reg: Registry, id: string): (r: Option<Task>)
    ensures r.Some? <==> id in reg
    ensures r.Some? ==> r.value == reg[id]
  {
    if id in reg then Some(reg[id]) else None
  }

  /** `updateTaskToProcessing`: a silent no-op for an unknown id. */
  function UpdateToProcessing(reg: Registry, id: string, now: Tick): (r: Registry)
    ensures id !in reg ==> r == reg
    ensures id in reg ==> id in r && r[id] == reg[id].(status := Some(Processing), updateTime := Some(now))
    ensures OthersUnchanged(reg, r, id)
  {
    if id in reg then reg[id := SetStatus(reg[id], Some(Processing), now)] else reg
  }

  /** `updateTaskToCompleted`: sets the status and the URL; the error message is left as it was. */
  function UpdateToCompleted(reg: Registry, id: string, url: string, now: Tick): (r: Registry)
    ensures id !in reg ==> r == reg
    ensures id in reg ==> id in r && r[id].status == Some(Completed) && r[id].fileUrl == Some(url)
    ensures id in reg ==> r[id] == reg[id].(status := Some(Completed), fileUrl := Some(url), updateTime := Some(now))
    ensures OthersUnchanged(reg, r, id)
  {
    if id in reg then reg[id := SetFileUrl(SetStatus(reg[id], Some(Completed), now), Some(url))] else reg
  }

  /** `updateTaskToFailed`: sets the status and the error message; the URL is left as it was. */
  function UpdateToFailed(reg: Registry, id: string, message: string, now: Tick): (r: Registry)
    ensures id !in reg ==> r == reg
    ensures id in reg ==> id in r && r[id].status == Some(Failed) && r[id].errorMessage == Some(message)
    ensures id in reg ==> r[id] == reg[id].(status := Some(Failed), errorMessage := Some(message), updateTime := Some(now))
    ensures OthersUnchanged(reg, r, id)
  {
    if id in reg then reg[id := SetErrorMessage(SetStatus(reg[id], Some(Failed), now), Some(message))] else reg
  }

  /** A record created by `createTask` is what `getTask` later returns, and other ids are unaffected. */
  lemma GetAfterCreate(reg: Registry, id: string, name: string, created: Tick, updated: Tick, other: string)
    ensures GetTask(CreateTask(reg, id, name, created, updated).0, id) == Some(CreateTask(reg, id, name, created, updated).1)
    ensures other != id ==> GetTask(CreateTask(reg, id, name, created, updated).0, other) == GetTask(reg, other)
  {
  }

  /**
   * The transitions never look at the current status: a COMPLETED or FAILED task is sent
   * back to PROCESSING, and a FAILED task can be marked COMPLETED. Monotonicity is a
   * property of the callers' order, not of the registry.
   */
  lemma TransitionsIgnoreCurrentStatus(reg: Registry, id: string, now: Tick, url: string)
    requires id in reg && reg[id].status in {Some(Completed), Some(Failed)}
    ensures UpdateToProcessing(reg, id, now)[id].status == Some(Processing)
    ensures UpdateToCompleted(reg, id, url, now)[id].status == Some(Completed)
  {
  }
}

=== FILE: task_status.dfy ===
/** The lifecycle states of a conversion task and their display descriptions. */
module TaskStatus {

  datatype Status = Pending | Processing | Completed | Failed

  /** `TaskStatus.values()`: the constants in declaration order. */
  const Values: seq<Status> := [Pending, Processing, Completed, Failed]

  /** `ordinal()`: the position of the constant in its declaration. */
  function Ordinal(s: Status): (n: nat)
    ensures n < |Values| && Values[n] == s
  {
    match s
    case Pending => 0
    case Processing => 1
    case Completed => 2
    case Failed => 3
  }

  /** `getDescription()`: the text each constant is constructed with. */
  function Description(s: Status): (d: string)
    ensures |d| > 0
  {
    match s
    case Pending => "待处理"
    case Processing => "处理中"
    case Completed => "已完成"
    case Failed => "失败"
  }

  /** The enum has exactly four constants, each listed once, and every status is among them. */
  lemma ValuesEnumerateStatuses()
    ensures |Values| == 4
    ensures forall i, j :: 0 <= i < j < |Values| ==> Values[i] != Values[j]
    ensures forall s: Status :: s in Values && Ordinal(s) < 4
  {
    forall s: Status ensures s in Values {
      assert Values[Ordinal(s)] == s;
    }
  }

  /** No two constants share a description, so a description names its constant. */
  lemma DescriptionsAreDistinct(s: Status, t: Status)
    ensures Description(s) == Description(t) <==> s == t
  {
  }
}

=== FILE: text.dfy ===
/**
 * The `java.lang.String` operations the conversion pipeline relies on.
 * Case mapping is ASCII only; Java's `\s` is the six ASCII whitespace characters.
 */
module Text {

  /** `s.lastIndexOf(c)`: the index of the last `c` in `s`, or -1. */
  function LastIndexOf(s: string, c: char): (r: int)
    ensures -1 <= r < |s|
    ensures r == -1 <==> c !in s
    ensures r >= 0 ==> s[r] == c
    ensures forall j :: r < j < |s| ==> s[j] != c
  {
    if |s| == 0 then -1
    else if s[|s| - 1] == c then |s| - 1
    else
      var r := LastIndexOf(s[..|s| - 1], c);
      assert s == s[..|s| - 1] + [s[|s| - 1]];
      r
  }

  /** An occurrence of `c` with none after it is the one `lastIndexOf` reports. */
  lemma LastIndexOfAt(s: string, c: char, i: int)
    requires 0 <= i < |s| && s[i] == c
    requires forall j :: i < j < |s| ==> s[j] != c
    ensures LastIndexOf(s, c) == i
  {
  }

  function LowerChar(c: char): char {
    if 'A' <= c <= 'Z' then (c as int + 32) as char else c
  }

  /** `s.toLowerCase()`, restricted to ASCII letters. */
  function ToLower(s: string): (r: string)
    ensures |r| == |s|
    ensures forall i :: 0 <= i < |s| ==> r[i] == LowerChar(s[i])
  {
    seq(|s|, i requires 0 <= i < |s| => LowerChar(s[i]))
  }

  function UpperChar(c: char): char {
    if 'a' <= c <= 'z' then (c as int - 32) as char else c
  }

  /** `a.equalsIgnoreCase(b)`. */
  predicate EqualsIgnoreCase(a: string, b: string) {
    |a| == |b| && ToLower(a) == ToLower(b)
  }

  /**
   * The JDK compares character by character: equal, or equal after upper-casing, or equal
   * after lower-casing. With ASCII case mapping that is lower-case equality of the strings.
   */
  lemma EqualsIgnoreCaseCharwise(a: string, b: string)
    ensures EqualsIgnoreCase(a, b) <==>
      && |a| == |b|
      && forall i :: 0 <= i < |a| ==>
        a[i] == b[i] || UpperChar(a[i]) == UpperChar(b[i]) || LowerChar(a[i]) == LowerChar(b[i])
  {
    if |a| == |b| {
      if forall i :: 0 <= i < |a| ==>
          a[i] == b[i] || UpperChar(a[i]) == UpperChar(b[i]) || LowerChar(a[i]) == LowerChar(b[i])
      {
        forall i | 0 <= i < |a| ensures ToLower(a)[i] == ToLower(b)[i] {
          SameCaseFold(a[i], b[i]);
        }
      }
    }
  }

  /** Two characters equal after upper-casing are equal after lower-casing. */
  lemma SameCaseFold(x: char, y: char)
    requires x == y || UpperChar(x) == UpperChar(y) || LowerChar(x) == LowerChar(y)
    ensures LowerChar(x) == LowerChar(y)
  {
  }

  /** A character Java's regular-expression class `\s` matches. */
  predicate IsWhitespace(c: char) {
    c == ' ' || c == '\t' || c == '\n' || c == '\U{000B}' || c == '\U{000C}' || c == '\r'
  }

  /** `s.replaceAll("\\s+", "")`: every whitespace run is deleted and the other characters stay in order. */
  function RemoveWhitespace(s: string): (r: string)
    ensures forall c :: c in r ==> c in s && !IsWhitespace(c)
    ensures |r| <= |s|
  {
    if |s| == 0 then ""
    else if IsWhitespace(s[0]) then RemoveWhitespace(s[1..])
    else [s[0]] + RemoveWhitespace(s[1..])
  }

  /** Removing whitespace distributes over concatenation. */
  lemma {:induction false} RemoveWhitespaceAppend(a: string, b: string)
    ensures RemoveWhitespace(a + b) == RemoveWhitespace(a) + RemoveWhitespace(b)
    decreases |a|
  {
    if |a| == 0 {
      assert a + b == b;
    } else {
      assert (a + b)[1..] == a[1..] + b;
      RemoveWhitespaceAppend(a[1..], b);
    }
  }

  /** A string without whitespace is left as it is. */
  lemma {:induction false} RemoveWhitespaceKeepsPlain(s: string)
    requires forall i :: 0 <= i < |s| ==> !IsWhitespace(s[i])
    ensures RemoveWhitespace(s) == s
    decreases |s|
  {
    if |s| > 0 {
      RemoveWhitespaceKeepsPlain(s[1..]);
    }
  }

  /** A single whitespace character is removed. */
  lemma RemoveWhitespaceDropsBlank(c: char)
    requires IsWhitespace(c)
    ensures RemoveWhitespace([c]) == ""
  {
    assert [c][1..] == "";
  }

  /** Lower-casing never turns a character into whitespace or out of it, so the two steps commute. */
  lemma {:induction false} LowerCommutesWithRemoveWhitespace(s: string)
    ensures ToLower(RemoveWhitespace(s)) == RemoveWhitespace(ToLower(s))
    decreases |s|
  {
    if |s| > 0 {
      LowerCommutesWithRemoveWhitespace(s[1..]);
      assert ToLower(s)[1..] == ToLower(s[1..]);
      if !IsWhitespace(s[0]) {
        assert ToLower([s[0]] + RemoveWhitespace(s[1..])) == [LowerChar(s[0])] + ToLower(RemoveWhitespace(s[1..]));
      }
    }
  }

  predicate StartsWith<T(==)>(s: seq<T>, p: seq<T>) {
    |p| <= |s| && s[..|p|] == p
  }

  predicate EndsWith<T(==)>(s: seq<T>, p: seq<T>) {
    |p| <= |s| && s[|s| - |p|..] == p
  }

  /** `m` occurs in `s` starting at index `i`. */
  predicate OccursAt<T(==)>(s: seq<T>, m: seq<T>, i: int) {
    0 <= i && i + |m| <= |s| && s[i..i + |m|] == m
  }

  /** `s.contains(m)`: `m` occurs in `s` as a contiguous run. */
  predicate Contains<T(==)>(s: seq<T>, m: seq<T>) {
    exists i :: 0 <= i <= |s| - |m| && OccursAt(s, m, i)
  }

  function DigitChar(d: nat): char
    requires d < 10
  {
    "0123456789"[d]
  }

  function NatToString(n: nat): (r: string)
    decreases n
  {
    if n < 10 then [DigitChar(n)] else NatToString(n / 10) + [DigitChar(n % 10)]
  }

  /** `Integer.toString(i)` (and string concatenation of an `int`). */
  function IntToString(i: int): string {
    if i < 0 then "-" + NatToString(-i) else NatToString(i)
  }

  /**
   * The UTF-16 code units Java stores for one character: the character itself in the
   * Basic Multilingual Plane, a high and a low surrogate above it.
   */
  function CodeUnits(c: char): (u: seq<int>)
    ensures |u| == (if c as int < 0x1_0000 then 1 else 2)
    ensures forall i :: 0 <= i < |u| ==> 0 <= u[i] < 0x1_0000
    ensures |u| == 2 ==> 0xD800 <= u[0] < 0xDC00 <= u[1] < 0xE000
  {
    var n := c as int;
    if n < 0x1_0000 then [n]
    else [0xD800 + (n - 0x1_0000) / 0x400, 0xDC00 + (n - 0x1_0000) % 0x400]
  }

  /**
   * A string as Java holds it. `length()`, `substring` and `startsWith` count and compare
   * these code units, so a character outside the Basic Multilingual Plane counts twice.
   */
  function Utf16(s: string): (u: seq<int>)
    ensures |u| >= |s|
    decreases |s|
  {
    if |s| == 0 then [] else CodeUnits(s[0]) + Utf16(s[1..])
  }

  /** `s.length()`. */
  function JavaLength(s: string): nat {
    |Utf16(s)|
  }

  lemma {:induction false} Utf16Append(a: string, b: string)
    ensures Utf16(a + b) == Utf16(a) + Utf16(b)
    decreases |a|
  {
    if |a| == 0 {
      assert a + b == b;
    } else {
      assert (a + b)[1..] == a[1..] + b;
      Utf16Append(a[1..], b);
    }
  }

  /** In the Basic Multilingual Plane each character is one code unit, its own value. */
  lemma {:induction false} Utf16OfBmp(s: string)
    requires forall i :: 0 <= i < |s| ==> s[i] as int < 0x1_0000
    ensures |Utf16(s)| == |s|
    ensures forall i :: 0 <= i < |s| ==> Utf16(s)[i] == s[i] as int
    decreases |s|
  {
    if |s| > 0 {
      Utf16OfBmp(s[1..]);
    }
  }

  /** U+1F600 is one Dafny character and two Java characters, D83D DE00. */
  lemma SupplementaryCountsTwice()
    ensures |"\U{1F600}"| == 1
    ensures Utf16("\U{1F600}") == [0xD83D, 0xDE00] && JavaLength("\U{1F600}") == 2
  {
    assert "\U{1F600}"[1..] == "";
  }

  /**
   * The Java runtime, which decides the text of the `substring` exception. JDK 8 checks the
   * bounds inside `substring`; JDK 9 to 17 call `checkBoundsBeginEnd`, which builds its own
   * message; in JDK 21 `checkBoundsBeginEnd` delegates to `Preconditions.checkFromToIndex`.
   */
  datatype Jdk = Jdk8 | Jdk9To17 | Jdk21

  /** The part of the JDK 21 text between the range and the length. */
  const RangeOutOfBounds: string := ") out of bounds for length "

  /**
   * `getMessage()` of the `StringIndexOutOfBoundsException` from `s.substring(begin, end)`
   * when `s` has `length` code units. JDK 8 reports the first offending value among `begin`,
   * `end` and `end - begin`, tested in that order; the later runtimes report all three numbers.
   */
  function SubstringRangeMessage(jdk: Jdk, begin: int, end: int, length: int): (m: string)
    ensures jdk.Jdk8? ==> StartsWith(m, "String index out of range: ")
    ensures jdk.Jdk8? && begin < 0 ==> EndsWith(m, IntToString(begin))
    ensures jdk.Jdk8? && 0 <= begin && end > length ==> EndsWith(m, IntToString(end))
    ensures jdk.Jdk8? && 0 <= begin && end <= length ==> EndsWith(m, IntToString(end - begin))
    ensures jdk.Jdk9To17? ==> StartsWith(m, "begin " + IntToString(begin) + ", end ") && EndsWith(m, IntToString(length))
    ensures jdk.Jdk21? ==> StartsWith(m, "Range [" + IntToString(begin) + ", ") && EndsWith(m, RangeOutOfBounds + IntToString(length))
    ensures jdk.Jdk9To17? ==> var k := |"begin " + IntToString(begin) + ", end "|;
      k + |IntToString(end)| <= |m| && m[k..k + |IntToString(end)|] == IntToString(end)
    ensures jdk.Jdk21? ==> var k := |"Range [" + IntToString(begin) + ", "|;
      k + |IntToString(end)| <= |m| && m[k..k + |IntToString(end)|] == IntToString(end)
  {
    match jdk
    case Jdk8 =>
      IndexMessage(if begin < 0 then begin else if end > length then end else end - begin)
    case Jdk9To17 =>
      BeginEndMessage(begin, end, length)
    case Jdk21 =>
      RangeMessage(begin, end, length)
  }

  /** JDK 8: `new StringIndexOutOfBoundsException(index)`. */
  function IndexMessage(index: int): (m: string)
    ensures StartsWith(m, "String index out of range: ") && EndsWith(m, IntToString(index))
  {
    ConcatEnds("String index out of range: ", IntToString(index));
    "String index out of range: " + IntToString(index)
  }

  /** JDK 9 to 17: the message `checkBoundsBeginEnd` builds. */
  function BeginEndMessage(begin: int, end: int, length: int): (m: string)
    ensures StartsWith(m, "begin " + IntToString(begin) + ", end ") && EndsWith(m, IntToString(length))
    ensures var k := |"begin " + IntToString(begin) + ", end "|;
      && |m| == k + |IntToString(end)| + |", length " + IntToString(length)|
      && m[k..k + |IntToString(end)|] == IntToString(end)
      && m[k + |IntToString(end)|..] == ", length " + IntToString(length)
  {
    var head := "begin " + IntToString(begin) + ", end ";
    ThreeParts(head, IntToString(end), ", length " + IntToString(length));
    EndsOfRest(head + IntToString(end), ", length ", IntToString(length));
    head + IntToString(end) + (", length " + IntToString(length))
  }

  /** JDK 21: the `Preconditions.checkFromToIndex` text, "Range [begin, end) out of bounds for length n". */
  function RangeMessage(begin: int, end: int, length: int): (m: string)
    ensures StartsWith(m, "Range [" + IntToString(begin) + ", ") && EndsWith(m, RangeOutOfBounds + IntToString(length))
    ensures var k := |"Range [" + IntToString(begin) + ", "|;
      && |m| == k + |IntToString(end)| + |RangeOutOfBounds + IntToString(length)|
      && m[k..k + |IntToString(end)|] == IntToString(end)
      && m[k + |IntToString(end)|..] == RangeOutOfBounds + IntToString(length)
  {
    var head := "Range [" + IntToString(begin) + ", ";
    ThreeParts(head, IntToString(end), RangeOutOfBounds + IntToString(length));
    head + IntToString(end) + (RangeOutOfBounds + IntToString(length))
  }

  /** A concatenation starts with its first part and ends with its second. */
  lemma ConcatEnds<T>(p: seq<T>, q: seq<T>)
    ensures StartsWith(p + q, p) && EndsWith(p + q, q)
  {
    assert (p + q)[..|p|] == p;
    assert (p + q)[|p| + |q| - |q|..] == q;
  }

  /** The three parts of `p + q + r` are found where they were put. */
  lemma ThreeParts<T>(p: seq<T>, q: seq<T>, r: seq<T>)
    ensures var s := p + q + r;
      && StartsWith(s, p) && EndsWith(s, r)
      && s[|p|..|p| + |q|] == q && s[|p| + |q|..] == r
  {
    var s := p + q + r;
    assert s[..|p|] == p;
    assert s[|p|..|p| + |q|] == q;
    assert s[|p| + |q|..] == r;
  }

  /** What ends the tail of a concatenation ends the whole. */
  lemma EndsOfRest<T>(p: seq<T>, q: seq<T>, r: seq<T>)
    ensures EndsWith(p + (q + r), r)
  {
    assert (p + (q + r))[|p| + |q|..] == r;
  }

  /** On JDK 8, `substring(0, -1)` reports the negative length, whatever the string's length. */
  lemma NegativeEndMessage(length: nat)
    ensures SubstringRangeMessage(Jdk8, 0, -1, length) == "String index out of range: -1"
  {
    assert IntToString(-1) == "-1" by {
      assert NatToString(1) == "1";
    }
  }

  /** On JDK 21, `substring(0, -1)` reports the range [0, -1) and the string's length. */
  lemma NegativeEndRangeMessage(length: nat)
    ensures SubstringRangeMessage(Jdk21, 0, -1, length) == "Range [0, -1" + RangeOutOfBounds + IntToString(length)
  {
    var tail := RangeOutOfBounds + IntToString(length);
    assert SubstringRangeMessage(Jdk21, 0, -1, length) == "Range [" + IntToString(0) + ", " + IntToString(-1) + tail;
    assert IntToString(0) == "0";
    assert IntToString(-1) == "-1" by {
      assert NatToString(1) == "1";
    }
    assert "Range [" + "0" + ", " + "-1" + tail == "Range [0, -1" + tail;
  }
}
